=== FILE: README.md ===
# Product catalogue service — a Dafny model

This project models the product catalogue service of the ProductCrud web application. It
has three parts:

- **The listing query** (`GetProductsAsync`). It filters the products by an optional
  search text and an optional category, sorts them by a key chosen by name, counts the
  matches and returns one page of them.
- **The record lifecycle.** This covers lookup by id, create, update and delete on the
  store of products keyed by id, plus the list of distinct categories.
- **The validation rules** declared on the `Product` record with data annotations. These
  are `[Required]`, `[StringLength]` and `[Range]`.

The datastore is modelled as `map<Id, Product>`. Every operation is a pure function.

- A write returns the new store together with what the service returns.
- A failed update is an error value, not an exception.
- The id generator and the clock become parameters.
  - `Create` receives the `Guid` it would generate, as a nonzero number, and the two clock
    readings it takes.
  - `Update` receives its single clock reading.
- The datastore hands rows back in an unspecified order. The listing and the facet list
  take that order as a parameter `scan`, a duplicate-free enumeration of the store's keys.
  - Every property of a single call holds for every such order.
  - Properties that relate several listing calls give each call its own order. They hold
    when no two matching records tie on the sort key, because the code breaks no ties.
  - `Listing.UnknownSortKeySortsByName` is the exception. It compares an unknown sort key
    with "Name" over one table order, with no such premise, because both keys send the
    same query.

Text handling:

- The search text is lower-cased in .NET before the query is sent. `Text.ToLower` models
  .NET's `ToLower` on Latin and Cyrillic capitals: A..Z, Ѐ..Џ and А..Я.
- The name and description are lower-cased inside SQLite, whose `lower()` knows only A..Z.
  That is `Text.SqlLower`.
- The listing model lower-cases both sides the .NET way (`Listing.MatchesSearch`). The
  search as the code runs it is `Listing.MatchesSearchAsWritten` (see Findings).
- Text columns sort by code point, which is SQLite's BINARY collation.
- `Contains` is an ordinal substring test.
- `string.IsNullOrWhiteSpace` uses the full .NET white-space list.

Prices are integer cents. Timestamps are integer ticks.

The modules, one per file:

- `Nullables`: `Nullable<T>`, a value or null.
- `Text`: white space, lower-casing, substring search and the ordinal string order. This
  module also proves that the order is total, reflexive, antisymmetric and transitive.
- `Models`: the `Product` record, the store and the validation rules.
- `Sequences`: `Distinct` and the LINQ `Where` filter.
- `Sorting`: the sort key, the ascending or descending comparison, and a sort that returns
  an ordered permutation.
- `Paging`: LINQ `Skip`/`Take`, the page offset, the page as written with 32-bit
  wrap-around, and page tiling.
- `Listing`: the listing query, the category facet list and their properties.
- `Lifecycle`: lookup, create, update and delete, and the invariants they keep.

## Model

| member | source | states |
|---|---|---|
| Text.ToLowerChar | ProductCrud.Web/Services/ProductService.cs:29 | The result is never a capital. A character that is not a capital stays. A..Z and А..Я move up by 32, and Ѐ..Џ move up by 80. |
| Text.ToLower | ProductCrud.Web/Services/ProductService.cs:29 | Lower-casing keeps the length and lower-cases position by position. |
| Text.ToLowerIdempotent | ProductCrud.Web/Services/ProductService.cs:29 | Lower-casing twice is lower-casing once. |
| Text.ToLowerMissesLetter | ProductCrud.Web/Services/ProductService.cs:29-31 | Lower-casing produces a letter of a..z only from that letter or its capital. |
| Text.SqlLowerMissesLetter | ProductCrud.Web/Services/ProductService.cs:30-31 | SQLite's lowering yields a character above U+007F only where the text already held it. |
| Text.SqlLowerChar | ProductCrud.Web/Services/ProductService.cs:30-31 | SQLite's `lower()` moves A..Z to a..z and leaves every other character, Cyrillic capitals included. |
| Text.SqlLower | ProductCrud.Web/Services/ProductService.cs:30-31 | SQLite's lower-casing of a column keeps the length and works position by position. |
| Text.SqlLowerAgreesWithoutCyrillic | ProductCrud.Web/Services/ProductService.cs:29-31 | The two lower-casings give the same text iff the text holds no character in U+0400..U+042F. |
| Text.ContainsSqlLowerImplies | ProductCrud.Web/Services/ProductService.cs:29-31 | A text without capitals that occurs in the SQLite-lowered column also occurs in the column lowered the .NET way. |
| Text.NotContainsFirst | ProductCrud.Web/Services/ProductService.cs:30-31 | A text lacking the first character of `sub` does not contain `sub`. |
| Text.ContainsIffOccurs | ProductCrud.Web/Services/ProductService.cs:30-31 | `Contains(s, sub)` holds exactly when `sub` starts at some position of `s`. |
| Text.LexLeTotal | ProductCrud.Web/Services/ProductService.cs:39-43 | Any two strings are comparable in the ordinal order used to sort name and category. |
| Text.LexLeAntisymmetric | ProductCrud.Web/Services/ProductService.cs:39-43 | Two strings that are each ordered no later than the other are equal. |
| Text.LexLeTransitive | ProductCrud.Web/Services/ProductService.cs:39-43 | The ordinal string order is transitive. |
| Text.LexLeReflexive | ProductCrud.Web/Services/ProductService.cs:39-43 | Every string is ordered no later than itself. |
| Models.Valid | ProductCrud.Web/Models/Product.cs:9-26 | A record is valid when all of these hold: the name is non-blank and 3..50 characters long; the description is absent or at most 255 long; the price is 1..99999999 cents; the category is non-blank and at most 50 long. Its partner is `Models.Violations`, whose contract says a record has no violations iff it is valid and names the failing field for each rule. |
| Models.Violations | ProductCrud.Web/Models/Product.cs:9-26 | A record has no violations iff it is valid. Name fails iff it is blank or its length is outside 3..50. Description fails iff it is present and longer than 255. Price fails iff it is outside 1..99999999 cents. Category fails iff it is blank or longer than 50. |
| Models.ValidIgnoresBookkeeping | ProductCrud.Web/Models/Product.cs:7-32 | Changing id, CreatedAt or UpdatedAt changes neither validity nor the set of violations. |
| Sequences.Filter | ProductCrud.Web/Services/ProductService.cs:30-35 | `Where` keeps every passing element as often as it occurs and drops every failing one. |
| Sequences.DistinctCounts | ProductCrud.Web/Services/ProductService.cs:46-47 | A sequence has no duplicates iff every element occurs at most once in its multiset. |
| Sorting.ParseSortKey | ProductCrud.Web/Services/ProductService.cs:37-44 | "Price", "Category" and "CreatedAt" select their own key, exactly and case-sensitively. Every other string, "Name" included, selects the name key. |
| Sorting.ParseKeyName | ProductCrud.Web/Services/ProductService.cs:37-43 | Each key's own name selects that key. |
| Sorting.InOrderTotal | ProductCrud.Web/Services/ProductService.cs:39-43 | For every key and direction, of two records one may come before the other. |
| Sorting.InOrderTransitive | ProductCrud.Web/Services/ProductService.cs:39-43 | The listing order on every key and in both directions is transitive. |
| Sorting.Sort | ProductCrud.Web/Services/ProductService.cs:37-44 | The sorted sequence is a permutation (same multiset) of its input, ordered by the chosen key in the chosen direction. |
| Sorting.HeadComesFirst | ProductCrud.Web/Services/ProductService.cs:37-44 | In a sorted sequence the first element comes no later than any other member. |
| Sorting.SortedUnique | ProductCrud.Web/Services/ProductService.cs:37-44 | Take two sorted, duplicate-free sequences with the same members, all drawn from a set of records no two of which tie on the key. Then the two sequences are equal. |
| Sorting.SortedDescendingIffReversed | ProductCrud.Web/Services/ProductService.cs:39-43 | A sequence is in `OrderByDescending` order iff its reverse is in `OrderBy` order on the same key. |
| Paging.Wrap32 | ProductCrud.Web/Services/ProductService.cs:47 | The 32-bit result differs from the exact value by a multiple of 2^32, and equals it when that value fits. |
| Paging.Skip | ProductCrud.Web/Services/ProductService.cs:47 | `Skip(n)` drops the first `max(0, n)` elements and keeps the rest in order. |
| Paging.Take | ProductCrud.Web/Services/ProductService.cs:47 | `Take(n)` is a prefix of length `min(len, max(0, n))`. |
| Paging.Page | ProductCrud.Web/Services/ProductService.cs:47 | A page has length `min(pageSize, total - max(0, offset))`, clamped at 0, so a page at or below 0 starts at the first record. Its i-th record is the record at offset + i. It is empty when pageSize is not positive or the offset is at or past the end. |
| Paging.PageWindow | ProductCrud.Web/Services/ProductService.cs:47 | Every page is one contiguous run of the sequence. |
| Paging.PageAsWritten | ProductCrud.Web/Services/ProductService.cs:47 | The page computed with a wrapping 32-bit offset equals `Page` whenever the exact offset fits in 32 bits, and never holds more than pageSize records. |
| Paging.PageOffsetWraps | ProductCrud.Web/Services/ProductService.cs:47 | For page 214748366 of size 10 over one record, the exact page is empty but the page as written returns the record. |
| Paging.PageSlice | ProductCrud.Web/Services/ProductService.cs:47 | For page >= 1 and a positive size, page p is the slice between the offsets of pages p and p + 1, cut at the end. |
| Paging.PagesTile | ProductCrud.Web/Services/ProductService.cs:47 | Pages 1..n, one after another, are a prefix of the sequence of length `min(total, n * pageSize)`: no gaps and no overlap. |
| Paging.JoinedPages | ProductCrud.Web/Services/ProductService.cs:47 | Pages 1..n taken one at a time and joined in order are the first n pages of the sequence. |
| Paging.PagesCoverAll | ProductCrud.Web/Services/ProductService.cs:47 | Once n pages reach the total, pages 1..n concatenated are the whole sequence. |
| Paging.OffsetGrows | ProductCrud.Web/Services/ProductService.cs:47 | A later page starts at least one full page after an earlier one. |
| Paging.PageIndex | ProductCrud.Web/Services/ProductService.cs:47 | The i-th record of page p, for p >= 1, is the record at `(p - 1) * pageSize + i`, and i is below pageSize. |
| Paging.PagesDisjoint | ProductCrud.Web/Services/ProductService.cs:47 | Two different pages of a duplicate-free sequence share no element. |
| Listing.Rows | ProductCrud.Web/Services/ProductService.cs:25 | The table read in scan order yields, at each position, the record stored under that position's key. |
| Listing.RowsCover | ProductCrud.Web/Services/ProductService.cs:25 | The rows of a full scan are exactly the store's records. |
| Listing.FilterCount | ProductCrud.Web/Services/ProductService.cs:46 | The number of filtered rows equals the number of keys whose records pass the filter. |
| Listing.SortedKeptFacts | ProductCrud.Web/Services/ProductService.cs:27-46 | The filtered and sorted rows number as many as the passing keys. They hold a record iff it is stored and passes. With one row per id they hold no duplicates. |
| Listing.Ordered | ProductCrud.Web/Services/ProductService.cs:27-44 | Before paging, the listing holds exactly the stored records that pass both filters (search AND category), as many as there are matching keys, sorted by the chosen key and direction, without duplicates when each row sits under its own id. |
| Listing.PageFacts | ProductCrud.Web/Services/ProductService.cs:47 | A page of an ordered sequence is ordered and drawn from it, and is duplicate-free when the sequence is. |
| Listing.GetProducts | ProductCrud.Web/Services/ProductService.cs:19-51 | The listing result satisfies the following. The count is the number of stored records passing both filters. Every item is a stored record that passes both filters. The items are sorted by the chosen key and direction. There are `min(pageSize, count - max(0, offset))` items, clamped at 0, and none when the page lies past the end. Item i is the ordered match at position offset + i. With one row per id, no item repeats. |
| Listing.TotalCountIgnoresPaging | ProductCrud.Web/Services/ProductService.cs:46 | The count depends only on the search and the category. It is the same for every page, page size, sort key, direction and scan order. |
| Listing.NoFilterMatchesAll | ProductCrud.Web/Services/ProductService.cs:27-35 | With a null or blank search and category, every stored key matches. |
| Listing.NoFilterCountsEverything | ProductCrud.Web/Services/ProductService.cs:27-46 | With a null or blank search and category, the count is the number of stored records. |
| Listing.MatchesSearch | ProductCrud.Web/Services/ProductService.cs:27-31 | A blank or null search selects every record. Otherwise the lower-cased search must occur in the lower-cased name or the lower-cased description. Both sides are lower-cased the same way. |
| Listing.MatchesSearchAsWritten | ProductCrud.Web/Services/ProductService.cs:29-31 | This is the search as the code runs it. A blank or null search selects every record. Otherwise the search text, lowered the .NET way, must occur in the name or the description lowered by SQLite's ASCII-only `lower()`. Its partners are `Listing.SearchAsWrittenFindsLess`, which says it matches no more than `Listing.MatchesSearch`, and `Listing.SearchAsWrittenAgreesOnLatin`, which says the two agree on records with no Cyrillic capital. |
| Listing.MatchesSearchIffOccurs | ProductCrud.Web/Services/ProductService.cs:27-31 | A non-blank search matches iff its lower-cased text starts at some position of the lower-cased name, or of the lower-cased description when there is one. |
| Listing.MatchesCategory | ProductCrud.Web/Services/ProductService.cs:34-35 | A blank or null category selects every record. Otherwise the category must be equal, case included. |
| Listing.CategoryFiltersExclusive | ProductCrud.Web/Services/ProductService.cs:34-35 | A non-blank category keeps a record iff the record's category equals it exactly, so a record passes at most one non-blank category. |
| Listing.ToLowerKeepsBlank | ProductCrud.Web/Services/ProductService.cs:27-29 | A text is blank iff its lower-cased form is blank. |
| Listing.SearchIgnoresCase | ProductCrud.Web/Services/ProductService.cs:27-31 | Two search texts that lower-case alike select the same records. |
| Listing.SearchIgnoresCaseExample | ProductCrud.Tests/ProductServiceTests.cs:284-290 | Searching "laptop" finds a product named "LAPTOP". |
| Listing.SearchFindsPartExample | ProductCrud.Tests/ProductServiceTests.cs:124-132 | Searching "Lap" finds a product named "Laptop". |
| Listing.SearchMissesExample | ProductCrud.Tests/ProductServiceTests.cs:124-132 | Searching "Lap" does not find a product named "Phone" described as "Desc". |
| Listing.SearchFindsNameStart | ProductCrud.Web/Services/ProductService.cs:27-31 | A non-blank search for the start of a record's name finds the record. |
| Listing.SearchFindsDescriptionStart | ProductCrud.Web/Services/ProductService.cs:27-31 | A non-blank search for the start of a record's description finds the record. |
| Listing.SearchFindsOwnName | ProductCrud.Web/Services/ProductService.cs:27-31 | A non-blank search for a record's own name finds the record. |
| Listing.CategoryFilterExample | ProductCrud.Tests/ProductServiceTests.cs:147-155 | Category "Electronics" keeps a record iff its category is "Electronics", and "electronics" does not keep it. |
| Listing.CombinedFilterExample | ProductCrud.Tests/ProductServiceTests.cs:293-301 | Search "Laptop" with category "Electronics" keeps "Laptop" filed under "Electronics" and drops "Laptop Case" filed under "Accessories". |
| Listing.SearchAsWrittenFindsLess | ProductCrud.Web/Services/ProductService.cs:29-31 | Every record the search as written finds, the consistent search also finds. |
| Listing.SearchAsWrittenAgreesOnLatin | ProductCrud.Web/Services/ProductService.cs:29-31 | On records whose name and description hold no character in U+0400..U+042F, the two searches agree. |
| Listing.SearchAsWrittenMissesSeededLaptop | ProductCrud.Web/Program.cs:30 | The search as written for "Игровой" misses the seeded laptop described as "Игровой ноутбук 15.6\"". |
| Listing.SearchFindsSeededLaptop | ProductCrud.Web/Program.cs:30 | The consistent search for "Игровой" finds the seeded laptop. |
| Listing.UnknownSortKeySortsByName | ProductCrud.Web/Services/ProductService.cs:43 | A sort key other than the four names returns exactly what "Name" returns. |
| Listing.OrderedIgnoresScanOrder | ProductCrud.Web/Services/ProductService.cs:25-44 | When no two matches tie on the sort key, the ordered matches are the same for every table order. |
| Listing.ListingIgnoresScanOrder | ProductCrud.Web/Services/ProductService.cs:19-51 | When no two matches tie on the sort key, a listing call returns the same result for every table order. |
| Listing.PageOfAnyScan | ProductCrud.Web/Services/ProductService.cs:37-47 | Without ties, the call for page n, whatever table order it reads, returns page n of the ordered matches. |
| Listing.PageCallIsPage | ProductCrud.Web/Services/ProductService.cs:37-47 | Without ties, the separate call for page i + 1 returns page i + 1 of the ordered matches. |
| Listing.ListedPagesArePages | ProductCrud.Web/Services/ProductService.cs:47 | Without ties, calling the listing for pages 1..n, each call with its own table order, and joining the items gives pages 1..n of one ordered sequence. |
| Listing.ListedPagesTile | ProductCrud.Web/Services/ProductService.cs:46-47 | Without ties, the items of pages 1..n from separate calls, joined, are a prefix of the ordered matches, of length `min(count, n * pageSize)`. |
| Listing.ListedPagesCoverMatches | ProductCrud.Web/Services/ProductService.cs:46-47 | Without ties, once n pages reach the count, the separate calls for pages 1..n list every matching record exactly once and nothing else. |
| Listing.ListedPagesDisjoint | ProductCrud.Web/Services/ProductService.cs:47 | Without ties, two different pages fetched by two calls, each with its own table order, share no record. |
| Listing.FirstPageHoldsAll | ProductCrud.Web/Services/ProductService.cs:47 | When every match fits on page 1, page 1 is the whole ordered result. |
| Listing.TwoRecordsListed | ProductCrud.Tests/ProductServiceTests.cs:111-121 | The test stores three records and lists them all on a first page of ten. This is its two-record analogue: with no filter, a store of two records lists both on that page, each exactly once, and the page holds nothing else. |
| Listing.SortByNameExample | ProductCrud.Tests/ProductServiceTests.cs:157-166 | Sorting ascending by name lists "Apple" before "Banana". |
| Listing.InsertCategory | ProductCrud.Web/Services/ProductService.cs:108 | Adding a category to an ascending list without duplicates keeps it ascending without duplicates and adds exactly that category. |
| Listing.CollectCategories | ProductCrud.Web/Services/ProductService.cs:108 | The collected categories are strictly ascending and hold exactly the categories of the given rows. |
| Listing.GetCategories | ProductCrud.Web/Services/ProductService.cs:106-109 | The facet list is strictly ascending, so each category appears once. A string is in it iff some stored record has that category. |
| Listing.AscendingUnique | ProductCrud.Web/Services/ProductService.cs:108 | Two strictly ascending lists with the same members are equal. |
| Listing.CategoriesIgnoreScanOrder | ProductCrud.Web/Services/ProductService.cs:106-109 | The facet list does not depend on the order the table is read in. |
| Lifecycle.GetById | ProductCrud.Web/Services/ProductService.cs:53-57 | Lookup returns the stored record when the id is present, and null otherwise. |
| Lifecycle.Create | ProductCrud.Web/Services/ProductService.cs:59-70 | Creation replaces the caller's id and timestamps with the generated id, which is never the empty Guid, and the two clock readings. It copies name, description, price and category. It adds exactly that key and changes no other record. A generated id already in use is a duplicate-key error that leaves the store unchanged. |
| Lifecycle.Update | ProductCrud.Web/Services/ProductService.cs:72-88 | Updating a missing id fails with NotFound and leaves the store unchanged. Otherwise the update copies name, description, price and category and sets UpdatedAt to the clock. It keeps the stored id and CreatedAt, returns the stored record, keeps the same keys and changes no other record. |
| Lifecycle.Delete | ProductCrud.Web/Services/ProductService.cs:90-104 | Delete answers true iff the id was present. It removes exactly that key and leaves every other record as it was. |
| Lifecycle.CreateThenGetById | ProductCrud.Web/Services/ProductService.cs:53-70 | A created record is found under its new id. |
| Lifecycle.CreateThenDelete | ProductCrud.Web/Services/ProductService.cs:59-104 | Deleting a just-created record answers true and restores the original store. |
| Lifecycle.DeleteThenGetById | ProductCrud.Web/Services/ProductService.cs:53-104 | After a delete the id is not found, and a second delete answers false and changes nothing. |
| Lifecycle.UpdateKeepsCreation | ProductCrud.Web/Services/ProductService.cs:59-88 | Updating a created record succeeds, keeps its id and creation time and takes the new name. |
| Lifecycle.StoreSizes | ProductCrud.Web/Services/ProductService.cs:59-104 | A create adds one record, and deleting it again brings the count back. |
| Lifecycle.OperationsKeepKeysMatchingIds | ProductCrud.Web/Services/ProductService.cs:59-104 | Create, update and delete all keep every record under its own id. |
| Lifecycle.OperationsKeepTimestampsOrdered | ProductCrud.Web/Services/ProductService.cs:59-88 | Suppose the clock never runs backwards. Then create, update and delete keep CreatedAt <= UpdatedAt on every record, and an update never moves UpdatedAt back. |
| Lifecycle.ValidInputKeepsStoreValid | ProductCrud.Web/Models/Product.cs:9-26 | If only valid input reaches the service, a store of valid records stays valid under create, update and delete. |

## Left out

- Logging, Entity Framework, the async `Task` plumbing and `SaveChangesAsync`. The
  datastore is an in-memory map, and a failed save is not modelled.
- The controller, `Program.cs` and the view model's page count. The page count is
  computed through `double`.
- Text.ToLowerChar: .NET lower-cases capitals of every script, with culture rules such as
  the Turkish dotted I. The model knows only Latin A..Z and the Cyrillic capitals
  U+0400..U+042F, which is what the application's own data uses.
- Listing.MatchesSearch: the listing model lower-cases the name and description the .NET
  way, as the search text is lowered. The code lowers them in SQLite, which knows only A..Z.
  That behaviour is `Listing.MatchesSearchAsWritten` (see Findings).
- UTF-16 lengths. A string is a sequence of Unicode scalar values, so a character outside
  the Basic Multilingual Plane counts once here but twice under `[StringLength]`.
- Listing.MatchesCategory: category equality is code-point equality, SQLite's BINARY
  collation. Other database collations are not modelled.
- Models.PriceValid: prices are whole cents. The `[Range]` check goes through `double`,
  and a `decimal` with more than two fractional digits is not modelled.
- Name and Category cannot be null in the model. A null from the form binder is the empty
  string here, and both are blank.
- Sorting.Sort: equal keys may come out in any order, because the source does not break
  ties. Only sortedness and permutation are stated, and two calls are not promised the
  same order among ties.
- Listing.ListedPagesArePages, Listing.ListedPagesTile, Listing.ListedPagesCoverMatches and
  Listing.ListedPagesDisjoint require that no two matches tie on the sort key. With ties,
  two page calls may order the tied records differently, so walking the pages can list a
  record twice or skip one. The code breaks no ties, so nothing better holds.
- Listing.GetProducts: a negative page size gives an empty page, as LINQ's `Take` does.
  How the datastore treats a negative `LIMIT` is not modelled.
- Listing.GetProducts: `CountAsync` returns an `int`, and a count above 2^31 - 1 is not
  modelled.
- The listing uses the exact page offset. The offset as written, with 32-bit wrap-around,
  is `Paging.PageAsWritten` (see Findings).
- Concurrent requests and the datastore's own row order. The row order is the `scan`
  parameter.
- Lifecycle.Create, Lifecycle.Update, Lifecycle.Delete: records are values here, while
  Entity Framework tracks and shares objects. `CreateAsync` writes the id and timestamps
  into the caller's own object and returns that object (ProductService.cs lines 61-69).
  `FindAsync` (line 74) can return an instance the context already tracks. A caller that
  edited such an instance, CreatedAt included, has that edit saved by the update.
  `SaveChangesAsync` (lines 66, 84 and 100) writes every pending edit, not only the
  service's own. The model assumes a context with no other tracked edits. That is what
  the context registered per request at Program.cs line 14 gives one web request.
- Lifecycle.Create takes two clock readings. The code reads `DateTime.UtcNow` twice
  (ProductService.cs lines 62-63), so CreatedAt and UpdatedAt need not be equal.
- Lifecycle.Create: a generated id that collides is reported as `DuplicateKey`, where the
  datastore would throw on save.
- The service validates nothing. Validation is the `Valid` predicate, and the service
  stores invalid records as readily as valid ones.

## Findings

| source | as written | input that shows it | evidently intended | confidence | as-written member | corrected member |
|---|---|---|---|---|---|---|
| ProductCrud.Web/Services/ProductService.cs:47 | `(page - 1) * pageSize` is computed in unchecked 32-bit `int`, so a large page number wraps to a negative offset, and `Skip` of a negative count skips nothing | page = 214748366, pageSize = 10, one record: the offset wraps to -2147483646 and the record comes back | a page past the end is empty | not executed | Paging.PageAsWritten (shown by Paging.PageOffsetWraps) | Paging.Page |
| ProductCrud.Web/Services/ProductService.cs:29-31 | the search text is lower-cased by .NET, which lowers Cyrillic, but the name and description are lower-cased by SQLite's `lower()`, which lowers only A..Z, so a search never matches a Cyrillic capital in a column | the laptop seeded at ProductCrud.Web/Program.cs:30, named "Ноутбук" and described as "Игровой ноутбук 15.6\"", with search "Игровой": the search becomes "игровой", the column keeps its capital "И", and the record is not found | a case-insensitive search finds a record by a word of its own name or description, in any script | not executed | Listing.MatchesSearchAsWritten (shown by Listing.SearchAsWrittenMissesSeededLaptop) | Listing.MatchesSearch (with Listing.SearchFindsSeededLaptop and Listing.SearchFindsOwnName) |

=== FILE: lifecycle.dfy ===
/**
 The write side of the product service and the lookup by id. Each operation takes the
 store and returns the store after it together with what the service returns. The id
 generator and the clock are parameters: `Create` receives the `Guid` it would generate
 and the two clock readings it takes, `Update` the one reading it takes.
 */
module Lifecycle {
  import opened Nullables
  import opened Models

  datatype Error =
    | NotFound(id: Id)       // `KeyNotFoundException` from an update of a missing id
    | DuplicateKey(id: Id)   // the datastore refusing a second row under an existing key

  datatype Result<T> = Ok(value: T) | Err(error: Error)

  /** The store after an operation, and the operation's return value. */
  datatype Reply<T> = Reply(store: Store, value: T)

  /** `GetByIdAsync`: the stored record, or null. */
  function GetById(store: Store, id: Id): (r: Nullable<Product>)
    ensures r.Value? <==> id in store
    ensures r.Value? ==> r.value == store[id]
  {
    if id in store then Value(store[id]) else Null
  }

  /** `CreateAsync`: the caller's id and timestamps are replaced by a generated id and two
      clock readings, and the record is added under that id. */
  function Create(store: Store, input: Product, id: GeneratedId, createdAt: Timestamp, updatedAt: Timestamp)
    : (r: Reply<Result<Product>>)
    ensures id in store ==> r == Reply(store, Err(DuplicateKey(id)))
    ensures id !in store ==>
      && r.value.Ok?
      && var p := r.value.value;
      && p.id == id && p.id != EmptyId
      && p.name == input.name && p.description == input.description
      && p.price == input.price && p.category == input.category
      && p.createdAt == createdAt && p.updatedAt == updatedAt
      && r.store.Keys == store.Keys + {id}
      && r.store[id] == p
      && (forall k :: k in store ==> r.store[k] == store[k])
  {
    if id in store then Reply(store, Err(DuplicateKey(id)))
    else
      var p := input.(id := id, createdAt := createdAt, updatedAt := updatedAt);
      Reply(store[id := p], Ok(p))
  }

  /** `UpdateAsync`: copies name, description, price and category onto the stored record and
      stamps it; a missing id is `NotFound` and leaves the store alone. */
  function Update(store: Store, input: Product, now: Timestamp): (r: Reply<Result<Product>>)
    ensures input.id !in store ==> r == Reply(store, Err(NotFound(input.id)))
    ensures input.id in store ==>
      && r.value.Ok?
      && var p := r.value.value;
      && var stored := store[input.id];
      && p.id == stored.id && p.createdAt == stored.createdAt
      && p.name == input.name && p.description == input.description
      && p.price == input.price && p.category == input.category
      && p.updatedAt == now
      && r.store.Keys == store.Keys
      && r.store[input.id] == p
      && (forall k :: k in store && k != input.id ==> r.store[k] == store[k])
  {
    if input.id !in store then Reply(store, Err(NotFound(input.id)))
    else
      var p := store[input.id].(
        name := input.name,
        description := input.description,
        price := input.price,
        category := input.category,
        updatedAt := now);
      Reply(store[input.id := p], Ok(p))
  }

  /** `DeleteAsync`: removes the record and answers true, or answers false when there is none. */
  function Delete(store: Store, id: Id): (r: Reply<bool>)
    ensures r.value <==> id in store
    ensures r.store.Keys == store.Keys - {id}
    ensures forall k :: k in r.store ==> r.store[k] == store[k]
  {
    if id in store then Reply(store - {id}, true) else Reply(store, false)
  }

  // ---- Properties across operations ----

  /** A created record can be looked up under its new id. */
  lemma CreateThenGetById(store: Store, input: Product, id: GeneratedId, t1: Timestamp, t2: Timestamp)
    requires id !in store
    ensures var r := Create(store, input, id, t1, t2);
      GetById(r.store, id) == Value(r.value.value)
  {
  }

  /** Deleting what was just created restores the store and answers true. */
  lemma CreateThenDelete(store: Store, input: Product, id: GeneratedId, t1: Timestamp, t2: Timestamp)
    requires id !in store
    ensures Delete(Create(store, input, id, t1, t2).store, id) == Reply(store, true)
  {
    assert Create(store, input, id, t1, t2).store - {id} == store;
  }

  /** After a delete the id is not found, and a second delete answers false. */
  lemma DeleteThenGetById(store: Store, id: Id)
    ensures GetById(Delete(store, id).store, id) == Null
    ensures Delete(Delete(store, id).store, id) == Reply(Delete(store, id).store, false)
  {
  }

  /** Updating a record created earlier keeps its id and creation time. */
  lemma UpdateKeepsCreation(store: Store, input: Product, edit: Product, id: GeneratedId,
                            t1: Timestamp, t2: Timestamp, now: Timestamp)
    requires id !in store && edit.id == id
    ensures var created := Create(store, input, id, t1, t2);
      var updated := Update(created.store, edit, now);
      && updated.value.Ok?
      && updated.value.value.id == id
      && updated.value.value.createdAt == t1
      && updated.value.value.name == edit.name
  {
  }

  /** Record counts: a create adds one row, a delete of a present id removes one. */
  lemma StoreSizes(store: Store, input: Product, id: GeneratedId, t1: Timestamp, t2: Timestamp)
    requires id !in store
    ensures |Create(store, input, id, t1, t2).store| == |store| + 1
    ensures |Delete(Create(store, input, id, t1, t2).store, id).store| == |store|
  {
    CreateThenDelete(store, input, id, t1, t2);
  }

  /** Every row stays under its own id. */
  lemma OperationsKeepKeysMatchingIds(store: Store, input: Product, id: GeneratedId,
                                      t1: Timestamp, t2: Timestamp, now: Timestamp, gone: Id)
    requires KeysMatchIds(store)
    ensures KeysMatchIds(Create(store, input, id, t1, t2).store)
    ensures KeysMatchIds(Update(store, input, now).store)
    ensures KeysMatchIds(Delete(store, gone).store)
  {
  }

  /** The clock reading `now` is no earlier than any time already recorded. */
  predicate NotBefore(store: Store, now: Timestamp) {
    forall k :: k in store ==> store[k].createdAt <= now && store[k].updatedAt <= now
  }

  /** With a clock that never runs backwards, no record is ever updated before it was created,
      and an update never moves `updatedAt` back. */
  lemma OperationsKeepTimestampsOrdered(store: Store, input: Product, id: GeneratedId,
                                        t1: Timestamp, t2: Timestamp, now: Timestamp, gone: Id)
    requires TimestampsOrdered(store)
    requires t1 <= t2 && NotBefore(store, now)
    ensures TimestampsOrdered(Create(store, input, id, t1, t2).store)
    ensures TimestampsOrdered(Update(store, input, now).store)
    ensures TimestampsOrdered(Delete(store, gone).store)
    ensures input.id in store ==> Update(store, input, now).value.value.updatedAt >= store[input.id].updatedAt
  {
  }

  /** The service does not validate; a store of valid records stays valid when only valid
      input reaches it, which is what the controller's model-state check arranges. */
  predicate AllValid(store: Store) {
    forall k :: k in store ==> Valid(store[k])
  }

  lemma ValidInputKeepsStoreValid(store: Store, input: Product, id: GeneratedId,
                                  t1: Timestamp, t2: Timestamp, now: Timestamp, gone: Id)
    requires AllValid(store) && Valid(input)
    ensures AllValid(Create(store, input, id, t1, t2).store)
    ensures AllValid(Update(store, input, now).store)
    ensures AllValid(Delete(store, gone).store)
  {
    ValidIgnoresBookkeeping(input, id, t1, t2);
    if input.id in store {
      var stored := store[input.id];
      ValidIgnoresBookkeeping(input, stored.id, stored.createdAt, now);
      assert Update(store, input, now).value.value
          == input.(id := stored.id, createdAt := stored.createdAt, updatedAt := now);
    }
  }
}

=== FILE: listing.dfy ===
/**
 The read side of the product service: the listing query (search and category filters,
 sort, count, page) and the distinct-category facet list.

 The datastore hands rows back in an order nobody specifies; every operation here takes
 that order as a parameter `scan`, a duplicate-free enumeration of the store's keys, and
 every promise it makes holds whatever that order is.
 */
module Listing {
  import opened Nullables
  import opened Text
  import opened Models
  import opened Sorting
  import opened Paging
  import opened Sequences

  /** The arguments of the listing call. */
  datatype Query = Query(
    search: Nullable<string>,
    category: Nullable<string>,
    sortBy: string,
    sortDesc: bool,
    page: Int32,
    pageSize: Int32)

  /** The listing result: one page of records and the number of records that matched. */
  datatype ProductPage = ProductPage(items: seq<Product>, totalCount: int)

  // ---- Filters ----

  /** A blank search selects everything; otherwise the lower-cased search text must occur in
      the lower-cased name or in the lower-cased description, when there is one. The search
      text is not trimmed. Both sides are lower-cased alike, so the search ignores case in
      Cyrillic as in Latin text. */
  predicate MatchesSearch(search: Nullable<string>, p: Product) {
    || IsNullOrWhiteSpace(search)
    || var s := ToLower(search.value);
       || Contains(ToLower(p.name), s)
       || (p.description.Value? && Contains(ToLower(p.description.value), s))
  }

  /** The search as the code runs it on SQLite: the search text is lower-cased by .NET, but
      the name and description are lower-cased by SQLite's `lower()`, which knows only A..Z. */
  predicate MatchesSearchAsWritten(search: Nullable<string>, p: Product) {
    || IsNullOrWhiteSpace(search)
    || var s := ToLower(search.value);
       || Contains(SqlLower(p.name), s)
       || (p.description.Value? && Contains(SqlLower(p.description.value), s))
  }

  /** A blank category selects everything; otherwise the category must be equal, case included. */
  predicate MatchesCategory(category: Nullable<string>, p: Product) {
    IsNullOrWhiteSpace(category) || p.category == category.value
  }

  predicate Matches(search: Nullable<string>, category: Nullable<string>, p: Product) {
    MatchesSearch(search, p) && MatchesCategory(category, p)
  }

  /** The keys of the records that pass both filters. */
  function MatchingIds(store: Store, search: Nullable<string>, category: Nullable<string>): set<Id> {
    set k | k in store && Matches(search, category, store[k])
  }

  /** The stored records that pass both filters. */
  function MatchingRecords(store: Store, search: Nullable<string>, category: Nullable<string>): set<Product> {
    set p | p in store.Values && Matches(search, category, p)
  }

  // ---- The table scan ----

  predicate IsScan(store: Store, scan: seq<Id>) {
    && Distinct(scan)
    && (forall k :: k in scan ==> k in store)
    && (forall k :: k in store ==> k in scan)
  }

  /** The rows of the table in scan order. */
  function Rows(store: Store, scan: seq<Id>): (r: seq<Product>)
    requires forall k :: k in scan ==> k in store
    ensures |r| == |scan|
    ensures forall i :: 0 <= i < |scan| ==> r[i] == store[scan[i]]
  {
    if |scan| == 0 then [] else [store[scan[0]]] + Rows(store, scan[1..])
  }

  /** The filter the query applies, as a predicate on records. */
  function Keep(search: Nullable<string>, category: Nullable<string>): Product -> bool {
    p => Matches(search, category, p)
  }

  /** The keys in `scan` whose records pass `keep`. */
  function KeptIds(store: Store, scan: seq<Id>, keep: Product -> bool): set<Id>
    requires forall k :: k in scan ==> k in store
  {
    set k | k in scan && keep(store[k])
  }

  lemma KeptIdsCons(store: Store, scan: seq<Id>, keep: Product -> bool)
    requires |scan| > 0 && forall k :: k in scan ==> k in store
    ensures KeptIds(store, scan, keep)
         == (if keep(store[scan[0]]) then {scan[0]} else {}) + KeptIds(store, scan[1..], keep)
  {
    assert scan == [scan[0]] + scan[1..];
  }

  lemma FilterRowsCons(store: Store, scan: seq<Id>, keep: Product -> bool)
    requires |scan| > 0 && forall k :: k in scan ==> k in store
    ensures |Filter(keep, Rows(store, scan))|
         == (if keep(store[scan[0]]) then 1 else 0) + |Filter(keep, Rows(store, scan[1..]))|
  {
    var rows := Rows(store, scan);
    assert rows[1..] == Rows(store, scan[1..]);
  }

  /** Counting the kept rows counts the keys whose records pass. */
  lemma {:induction false} FilterCount(store: Store, scan: seq<Id>, keep: Product -> bool)
    requires Distinct(scan) && forall k :: k in scan ==> k in store
    ensures |Filter(keep, Rows(store, scan))| == |KeptIds(store, scan, keep)|
  {
    if |scan| > 0 {
      var t := scan[1..];
      DistinctTail(scan);
      FilterCount(store, t, keep);
      FilterRowsCons(store, scan, keep);
      KeptIdsCons(store, scan, keep);
      var tail := KeptIds(store, t, keep);
      assert scan[0] !in tail;
      if keep(store[scan[0]]) {
        assert |{scan[0]} + tail| == 1 + |tail|;
      } else {
        assert ({} + tail) == tail;
      }
    }
  }

  /** With one row per id, rows at different positions of a scan differ. */
  lemma RowsDistinct(store: Store, scan: seq<Id>)
    requires IsScan(store, scan) && KeysMatchIds(store)
    ensures Distinct(Rows(store, scan))
  {
    var rows := Rows(store, scan);
    forall i, j | 0 <= i < j < |rows| ensures rows[i] != rows[j] {
      assert rows[i].id == scan[i] && rows[j].id == scan[j];
    }
  }

  /** The rows of a scan are exactly the store's records. */
  lemma RowsCover(store: Store, scan: seq<Id>)
    requires IsScan(store, scan)
    ensures forall p :: p in Rows(store, scan) <==> p in store.Values
  {
    var rows := Rows(store, scan);
    forall p | p in store.Values ensures p in rows {
      var key :| key in store && store[key] == p;
      var i :| 0 <= i < |scan| && scan[i] == key;
      assert rows[i] == p;
    }
  }

  /** The rows that pass `keep`, sorted, are a permutation of the records that pass `keep`. */
  lemma SortedKeptFacts(store: Store, scan: seq<Id>, keep: Product -> bool, k: SortKey, desc: bool)
    requires IsScan(store, scan)
    ensures var r := Sort(k, desc, Filter(keep, Rows(store, scan)));
      && |r| == |KeptIds(store, scan, keep)|
      && (forall p :: p in r <==> p in store.Values && keep(p))
      && (KeysMatchIds(store) ==> Distinct(r))
  {
    var rows := Rows(store, scan);
    var matched := Filter(keep, rows);
    var r := Sort(k, desc, matched);
    FilterCount(store, scan, keep);
    assert |r| == |matched| by {
      assert |multiset(r)| == |multiset(matched)|;
    }
    RowsCover(store, scan);
    assert forall p :: p in r <==> p in multiset(matched);
    if KeysMatchIds(store) {
      RowsDistinct(store, scan);
      DistinctCounts(rows);
      DistinctCounts(r);
    }
  }

  /** A full scan keeps the keys of all the records that pass. */
  lemma KeptIdsOfScan(store: Store, scan: seq<Id>, keep: Product -> bool)
    requires IsScan(store, scan)
    ensures KeptIds(store, scan, keep) == set k | k in store && keep(store[k])
  {
  }

  lemma KeepIsMatching(store: Store, search: Nullable<string>, category: Nullable<string>)
    ensures (set k | k in store && Keep(search, category)(store[k])) == MatchingIds(store, search, category)
  {
  }

  /** The filtered, sorted rows before paging: a permutation of the matching records. */
  lemma OrderedFacts(store: Store, scan: seq<Id>, q: Query)
    requires IsScan(store, scan)
    ensures var r := Sort(ParseSortKey(q.sortBy), q.sortDesc, Filter(Keep(q.search, q.category), Rows(store, scan)));
      && |r| == |MatchingIds(store, q.search, q.category)|
      && (forall p :: p in r <==> p in store.Values && Matches(q.search, q.category, p))
      && (KeysMatchIds(store) ==> Distinct(r))
  {
    var keep := Keep(q.search, q.category);
    SortedKeptFacts(store, scan, keep, ParseSortKey(q.sortBy), q.sortDesc);
    KeptIdsOfScan(store, scan, keep);
    KeepIsMatching(store, q.search, q.category);
  }

  /** Filter, then sort: the matching records in listing order, before paging. */
  function Ordered(store: Store, scan: seq<Id>, q: Query): (r: seq<Product>)
    requires IsScan(store, scan)
    ensures |r| == |MatchingIds(store, q.search, q.category)|
    ensures forall p :: p in r <==> p in store.Values && Matches(q.search, q.category, p)
    ensures SortedBy(ParseSortKey(q.sortBy), q.sortDesc, r)
    ensures KeysMatchIds(store) ==> Distinct(r)
  {
    OrderedFacts(store, scan, q);
    Sort(ParseSortKey(q.sortBy), q.sortDesc, Filter(Keep(q.search, q.category), Rows(store, scan)))
  }

  /** A run of consecutive elements of an ordered sequence is ordered, drawn from it, and
      duplicate-free when the sequence is. */
  lemma RunFacts(k: SortKey, desc: bool, all: seq<Product>, items: seq<Product>, o: int)
    requires SortedBy(k, desc, all)
    requires 0 <= o && o + |items| <= |all|
    requires forall i :: 0 <= i < |items| ==> items[i] == all[o + i]
    ensures forall p :: p in items ==> p in all
    ensures SortedBy(k, desc, items)
    ensures Distinct(all) ==> Distinct(items)
  {
    forall i | 0 <= i < |items| ensures items[i] in all {
      assert items[i] == all[o + i];
    }
    assert SortedBy(k, desc, items) by {
      forall i, j | 0 <= i < j < |items| ensures InOrder(k, desc, items[i], items[j]) {
        assert items[i] == all[o + i] && items[j] == all[o + j];
      }
    }
    if Distinct(all) {
      forall i, j | 0 <= i < j < |items| ensures items[i] != items[j] {
        assert items[i] == all[o + i] && items[j] == all[o + j];
      }
    }
  }

  /** A page of an ordered, duplicate-free sequence is ordered, duplicate-free and drawn from it. */
  lemma PageFacts(k: SortKey, desc: bool, all: seq<Product>, page: int, pageSize: int)
    requires SortedBy(k, desc, all)
    ensures var items := Page(all, page, pageSize);
      && (forall p :: p in items ==> p in all)
      && SortedBy(k, desc, items)
      && (Distinct(all) ==> Distinct(items))
  {
    var items := Page(all, page, pageSize);
    if |items| > 0 {
      RunFacts(k, desc, all, items, Max(0, Offset(page, pageSize)));
    }
  }

  /** `GetProductsAsync`: filter, sort, count, then one page. */
  function GetProducts(store: Store, scan: seq<Id>, q: Query): (r: ProductPage)
    requires IsScan(store, scan)
    ensures r.totalCount == |MatchingIds(store, q.search, q.category)|
    ensures forall p :: p in r.items ==>
              p in store.Values && MatchesSearch(q.search, p) && MatchesCategory(q.category, p)
    ensures SortedBy(ParseSortKey(q.sortBy), q.sortDesc, r.items)
    ensures |r.items| == Min(Max(0, q.pageSize), r.totalCount - Min(r.totalCount, Max(0, Offset(q.page, q.pageSize))))
    ensures q.pageSize <= 0 || r.totalCount <= Offset(q.page, q.pageSize) ==> r.items == []
    ensures KeysMatchIds(store) ==> Distinct(r.items)
    ensures var all, start := Ordered(store, scan, q), Max(0, Offset(q.page, q.pageSize));
      forall i :: 0 <= i < |r.items| ==> start + i < |all| && r.items[i] == all[start + i]
  {
    var all := Ordered(store, scan, q);
    PageFacts(ParseSortKey(q.sortBy), q.sortDesc, all, q.page, q.pageSize);
    ProductPage(Page(all, q.page, q.pageSize), |all|)
  }

  // ---- The category facet list ----

  /** Each category once, in ascending ordinal order. */
  predicate StrictlyAscending(cs: seq<string>) {
    forall i, j :: 0 <= i < j < |cs| ==> LexLt(cs[i], cs[j])
  }

  /** Adds `c` to an ascending list of distinct categories, unless it is already there. */
  function InsertCategory(c: string, cs: seq<string>): (r: seq<string>)
    requires StrictlyAscending(cs)
    ensures StrictlyAscending(r)
    ensures forall x :: x in r <==> x in cs || x == c
  {
    if |cs| == 0 then [c]
    else if c == cs[0] then cs
    else if LexLe(c, cs[0]) then
      InsertCategoryFront(c, cs);
      [c] + cs
    else
      LexLeTotal(c, cs[0]);
      var rest := InsertCategory(c, cs[1..]);
      InsertCategoryBehind(cs[0], c, cs[1..], rest);
      [cs[0]] + rest
  }

  lemma InsertCategoryFront(c: string, cs: seq<string>)
    requires StrictlyAscending(cs) && |cs| > 0 && LexLt(c, cs[0])
    ensures StrictlyAscending([c] + cs)
  {
    forall j | 1 <= j < |cs| + 1 ensures LexLt(c, ([c] + cs)[j]) {
      if j > 1 {
        LexLeTransitive(c, cs[0], cs[j - 1]);
        if c == cs[j - 1] {
          LexLeAntisymmetric(c, cs[0]);
        }
      }
    }
  }

  lemma InsertCategoryBehind(y: string, c: string, cs: seq<string>, rest: seq<string>)
    requires StrictlyAscending([y] + cs) && LexLt(y, c)
    requires StrictlyAscending(rest) && forall x :: x in rest <==> x in cs || x == c
    ensures StrictlyAscending([y] + rest)
  {
    forall j | 0 <= j < |rest| ensures LexLt(y, rest[j]) {
      assert rest[j] in rest;
      if rest[j] != c {
        var i :| 0 <= i < |cs| && cs[i] == rest[j];
        assert ([y] + cs)[i + 1] == cs[i];
        assert LexLt(([y] + cs)[0], ([y] + cs)[i + 1]);
      }
    }
  }

  /** The categories of the given rows, collapsed and ordered. */
  function CollectCategories(rows: seq<Product>): (r: seq<string>)
    ensures StrictlyAscending(r)
    ensures forall c :: c in r <==> exists i :: 0 <= i < |rows| && rows[i].category == c
  {
    if |rows| == 0 then []
    else
      var rest := CollectCategories(rows[1..]);
      assert forall i :: 1 <= i < |rows| ==> rows[i] == rows[1..][i - 1];
      InsertCategory(rows[0].category, rest)
  }

  /** `GetCategoriesAsync`: `Select(category).Distinct().OrderBy(c => c)`. */
  function GetCategories(store: Store, scan: seq<Id>): (r: seq<string>)
    requires IsScan(store, scan)
    ensures StrictlyAscending(r)
    ensures forall c :: c in r <==> exists k :: k in store && store[k].category == c
  {
    var rows := Rows(store, scan);
    assert forall k :: k in store ==> exists i :: 0 <= i < |scan| && scan[i] == k;
    CollectCategories(rows)
  }

  /** Two ascending lists of distinct strings with the same members are the same list. */
  lemma {:induction false} AscendingUnique(a: seq<string>, b: seq<string>)
    requires StrictlyAscending(a) && StrictlyAscending(b)
    requires forall x :: x in a <==> x in b
    ensures a == b
  {
    if |a| > 0 {
      assert a[0] in a;
    }
    if |b| > 0 {
      assert b[0] in b;
    }
    if |a| > 0 && |b| > 0 {
      var i :| 0 <= i < |a| && a[i] == b[0];
      var j :| 0 <= j < |b| && b[j] == a[0];
      if i > 0 && j > 0 {
        LexLeAntisymmetric(a[0], b[0]);
      }
      assert a[0] == b[0];
      forall x ensures x in a[1..] <==> x in b[1..] {
        if x in a[1..] {
          var m :| 0 <= m < |a| - 1 && a[1..][m] == x;
          assert LexLt(a[0], a[m + 1]);
          assert x in b;
          var n :| 0 <= n < |b| && b[n] == x;
          assert n > 0 && b[1..][n - 1] == x;
        }
        if x in b[1..] {
          var m :| 0 <= m < |b| - 1 && b[1..][m] == x;
          assert LexLt(b[0], b[m + 1]);
          assert x in a;
          var n :| 0 <= n < |a| && a[n] == x;
          assert n > 0 && a[1..][n - 1] == x;
        }
      }
      AscendingUnique(a[1..], b[1..]);
      assert a == [a[0]] + a[1..] && b == [b[0]] + b[1..];
    }
  }

  /** The facet list is the same whatever order the table is read in. */
  lemma CategoriesIgnoreScanOrder(store: Store, scan1: seq<Id>, scan2: seq<Id>)
    requires IsScan(store, scan1) && IsScan(store, scan2)
    ensures GetCategories(store, scan1) == GetCategories(store, scan2)
  {
    AscendingUnique(GetCategories(store, scan1), GetCategories(store, scan2));
  }

  // ---- Properties of the listing ----

  /** The count depends on the two filters only: not on the page, the page size, the sort or
      the order of the table scan. */
  lemma TotalCountIgnoresPaging(store: Store, scan1: seq<Id>, scan2: seq<Id>, q1: Query, q2: Query)
    requires IsScan(store, scan1) && IsScan(store, scan2)
    requires q1.search == q2.search && q1.category == q2.category
    ensures GetProducts(store, scan1, q1).totalCount == GetProducts(store, scan2, q2).totalCount
  {
  }

  lemma NoFilterMatchesAll(store: Store, search: Nullable<string>, category: Nullable<string>)
    requires IsNullOrWhiteSpace(search) && IsNullOrWhiteSpace(category)
    ensures MatchingIds(store, search, category) == store.Keys
  {
  }

  /** Without a search or a category every record is counted. */
  lemma NoFilterCountsEverything(store: Store, scan: seq<Id>, q: Query)
    requires IsScan(store, scan)
    requires IsNullOrWhiteSpace(q.search) && IsNullOrWhiteSpace(q.category)
    ensures GetProducts(store, scan, q).totalCount == |store|
  {
    NoFilterMatchesAll(store, q.search, q.category);
  }

  lemma ToLowerKeepsBlank(s: string)
    ensures IsBlank(ToLower(s)) <==> IsBlank(s)
  {
    var t := ToLower(s);
    forall i | 0 <= i < |s| ensures IsWhiteSpace(t[i]) <==> IsWhiteSpace(s[i]) {
    }
  }

  /** Two search texts that lower-case alike select the same records. */
  lemma SearchIgnoresCase(s1: string, s2: string, p: Product)
    requires ToLower(s1) == ToLower(s2)
    ensures MatchesSearch(Value(s1), p) <==> MatchesSearch(Value(s2), p)
  {
    ToLowerKeepsBlank(s1);
    ToLowerKeepsBlank(s2);
  }

  /** A non-blank search matches exactly when its lower-cased text starts at some position of
      the lower-cased name, or of the lower-cased description when there is one. */
  lemma MatchesSearchIffOccurs(s: string, p: Product)
    requires !IsBlank(s)
    ensures MatchesSearch(Value(s), p) <==>
      || (exists i :: 0 <= i <= |p.name| && ToLower(s) <= ToLower(p.name)[i..])
      || (p.description.Value? &&
          exists i :: 0 <= i <= |p.description.value| && ToLower(s) <= ToLower(p.description.value)[i..])
  {
    ContainsIffOccurs(ToLower(p.name), ToLower(s));
    if p.description.Value? {
      ContainsIffOccurs(ToLower(p.description.value), ToLower(s));
    }
  }

  /** The category filter is an exact match: a record passes at most one non-blank category,
      and two categories that differ only in case never both keep it. */
  lemma CategoryFiltersExclusive(c1: string, c2: string, p: Product)
    requires !IsBlank(c1) && !IsBlank(c2) && c1 != c2
    ensures !(MatchesCategory(Value(c1), p) && MatchesCategory(Value(c2), p))
    ensures MatchesCategory(Value(c1), p) <==> p.category == c1
  {
  }

  /** An unrecognised sort key lists exactly what "Name" lists. */
  lemma UnknownSortKeySortsByName(store: Store, scan: seq<Id>, q: Query)
    requires IsScan(store, scan)
    requires q.sortBy !in {"Name", "Price", "Category", "CreatedAt"}
    ensures GetProducts(store, scan, q) == GetProducts(store, scan, q.(sortBy := "Name"))
  {
    assert ParseSortKey(q.sortBy) == ParseSortKey("Name");
  }

  // ---- Walking the pages of a listing, one call per page ----

  /** No two different matching records tie on the sort key. Only then do two calls agree on
      the order: the code breaks no ties, and each call may read the table in another order. */
  predicate NoTiedMatches(store: Store, q: Query) {
    NoTies(ParseSortKey(q.sortBy), q.sortDesc, MatchingRecords(store, q.search, q.category))
  }

  /** The ordered matches do not depend on which page is asked for. */
  lemma OrderedIgnoresPage(store: Store, scan: seq<Id>, q: Query, n: Int32)
    requires IsScan(store, scan)
    ensures GetProducts(store, scan, q.(page := n)).items == Page(Ordered(store, scan, q), n, q.pageSize)
  {
    var q' := q.(page := n);
    assert q'.search == q.search && q'.category == q.category;
    assert q'.sortBy == q.sortBy && q'.sortDesc == q.sortDesc;
    assert Ordered(store, scan, q') == Ordered(store, scan, q);
  }

  /** Without ties, the ordered matches do not depend on the order the table is read in. */
  lemma OrderedIgnoresScanOrder(store: Store, scan1: seq<Id>, scan2: seq<Id>, q: Query)
    requires IsScan(store, scan1) && IsScan(store, scan2)
    requires KeysMatchIds(store) && NoTiedMatches(store, q)
    ensures Ordered(store, scan1, q) == Ordered(store, scan2, q)
  {
    var a, b := Ordered(store, scan1, q), Ordered(store, scan2, q);
    SortedUnique(ParseSortKey(q.sortBy), q.sortDesc, a, b, MatchingRecords(store, q.search, q.category));
  }

  /** Without ties, a listing call returns the same page whatever order the table is read in. */
  lemma ListingIgnoresScanOrder(store: Store, scan1: seq<Id>, scan2: seq<Id>, q: Query)
    requires IsScan(store, scan1) && IsScan(store, scan2)
    requires KeysMatchIds(store) && NoTiedMatches(store, q)
    ensures GetProducts(store, scan1, q) == GetProducts(store, scan2, q)
  {
    OrderedIgnoresScanOrder(store, scan1, scan2, q);
  }

  /** The pages 1..n, each fetched by its own call; call i reads the table in the order `scans[i - 1]`. */
  function PageCalls(store: Store, scans: seq<seq<Id>>, q: Query, n: nat): (r: seq<seq<Product>>)
    requires n <= |scans| && n <= Int32Max
    requires forall i :: 0 <= i < |scans| ==> IsScan(store, scans[i])
  {
    seq(n, i requires 0 <= i < n => GetProducts(store, scans[i], q.(page := i + 1)).items)
  }

  /** The records of pages 1..n, fetched one call per page, one after another. */
  function ListedPages(store: Store, scans: seq<seq<Id>>, q: Query, n: nat): seq<Product>
    requires n <= |scans| && n <= Int32Max
    requires forall i :: 0 <= i < |scans| ==> IsScan(store, scans[i])
  {
    Joined(PageCalls(store, scans, q, n))
  }

  /** Without ties, the separately fetched pages 1..n are pages 1..n of one ordered sequence. */
  lemma ListedPagesArePages(store: Store, scan: seq<Id>, scans: seq<seq<Id>>, q: Query, n: nat)
    requires IsScan(store, scan) && KeysMatchIds(store) && NoTiedMatches(store, q)
    requires n <= |scans| && n <= Int32Max
    requires forall i :: 0 <= i < |scans| ==> IsScan(store, scans[i])
    ensures ListedPages(store, scans, q, n) == FirstPages(Ordered(store, scan, q), n, q.pageSize)
  {
    var all, pages := Ordered(store, scan, q), PageCalls(store, scans, q, n);
    forall i | 0 <= i < n ensures pages[i] == Page(all, i + 1, q.pageSize) {
      PageCallIsPage(store, scan, scans, q, n, i);
    }
    JoinedPages(all, pages, q.pageSize);
  }

  /** Without ties, the call for page i + 1 returns page i + 1 of the ordered matches. */
  lemma PageCallIsPage(store: Store, scan: seq<Id>, scans: seq<seq<Id>>, q: Query, n: nat, i: nat)
    requires IsScan(store, scan) && KeysMatchIds(store) && NoTiedMatches(store, q)
    requires i < n <= |scans| && n <= Int32Max
    requires forall j :: 0 <= j < |scans| ==> IsScan(store, scans[j])
    ensures PageCalls(store, scans, q, n)[i] == Page(Ordered(store, scan, q), i + 1, q.pageSize)
  {
    PageOfAnyScan(store, scan, scans[i], q, i + 1);
  }

  /** Without ties, page n fetched with any table order is page n of the ordered matches. */
  lemma PageOfAnyScan(store: Store, scan: seq<Id>, other: seq<Id>, q: Query, n: Int32)
    requires IsScan(store, scan) && IsScan(store, other)
    requires KeysMatchIds(store) && NoTiedMatches(store, q)
    ensures GetProducts(store, other, q.(page := n)).items == Page(Ordered(store, scan, q), n, q.pageSize)
  {
    OrderedIgnoresPage(store, other, q, n);
    OrderedIgnoresScanOrder(store, other, scan, q);
  }

  /** Without ties, pages 1..n, one after another, are the ordered matches that come before
      page n + 1: no record is listed twice and none is skipped. */
  lemma ListedPagesTile(store: Store, scan: seq<Id>, scans: seq<seq<Id>>, q: Query, n: nat)
    requires IsScan(store, scan) && KeysMatchIds(store) && NoTiedMatches(store, q)
    requires n <= |scans| && n <= Int32Max && q.pageSize > 0
    requires forall i :: 0 <= i < |scans| ==> IsScan(store, scans[i])
    ensures ListedPages(store, scans, q, n) <= Ordered(store, scan, q)
    ensures |ListedPages(store, scans, q, n)|
         == Min(|MatchingIds(store, q.search, q.category)|, Offset(n + 1, q.pageSize))
  {
    var all := Ordered(store, scan, q);
    var size: int := q.pageSize;
    ListedPagesArePages(store, scan, scans, q, n);
    PagesTile(all, n, size);
    assert ListedPages(store, scans, q, n) == FirstPages(all, n, size);
  }

  /** Without ties, walking enough pages lists every matching record exactly once. */
  lemma ListedPagesCoverMatches(store: Store, scan: seq<Id>, scans: seq<seq<Id>>, q: Query, n: nat)
    requires IsScan(store, scan) && KeysMatchIds(store) && NoTiedMatches(store, q)
    requires n <= |scans| && n <= Int32Max && q.pageSize > 0
    requires forall i :: 0 <= i < |scans| ==> IsScan(store, scans[i])
    requires |MatchingIds(store, q.search, q.category)| <= Offset(n + 1, q.pageSize)
    ensures Distinct(ListedPages(store, scans, q, n))
    ensures forall p :: p in ListedPages(store, scans, q, n) <==> p in store.Values && Matches(q.search, q.category, p)
  {
    ListedPagesTile(store, scan, scans, q, n);
    assert ListedPages(store, scans, q, n) == Ordered(store, scan, q);
  }

  /** Without ties, two different pages, fetched by two calls, share no record. */
  lemma ListedPagesDisjoint(store: Store, scan1: seq<Id>, scan2: seq<Id>, q: Query, p: Int32, p2: Int32)
    requires IsScan(store, scan1) && IsScan(store, scan2)
    requires KeysMatchIds(store) && NoTiedMatches(store, q)
    requires 1 <= p < p2 && q.pageSize > 0
    ensures forall x :: x in GetProducts(store, scan1, q.(page := p)).items ==>
              x !in GetProducts(store, scan2, q.(page := p2)).items
  {
    var all := Ordered(store, scan1, q);
    OrderedIgnoresScanOrder(store, scan2, scan1, q);
    OrderedIgnoresPage(store, scan1, q, p);
    OrderedIgnoresPage(store, scan2, q, p2);
    forall x | x in Page(all, p, q.pageSize) ensures x !in Page(all, p2, q.pageSize) {
      PagesDisjoint(all, p, p2, q.pageSize, x);
    }
  }

  // ---- Filter examples ----

  /** A search for the start of a record's name finds the record, whatever the case. */
  lemma SearchFindsNameStart(s: string, p: Product)
    requires !IsBlank(s) && s <= p.name
    ensures MatchesSearch(Value(s), p)
  {
    var low, n := ToLower(s), ToLower(p.name);
    assert forall i :: 0 <= i < |low| ==> low[i] == n[i];
    assert low <= n;
  }

  /** A search for the start of a record's description finds the record, whatever the case. */
  lemma SearchFindsDescriptionStart(s: string, p: Product)
    requires !IsBlank(s) && p.description.Value? && s <= p.description.value
    ensures MatchesSearch(Value(s), p)
  {
    var low, d := ToLower(s), ToLower(p.description.value);
    assert forall i :: 0 <= i < |low| ==> low[i] == d[i];
    assert low <= d;
  }

  /** A search for a record's own name finds it. */
  lemma SearchFindsOwnName(s: string, p: Product)
    requires !IsBlank(s) && p.name == s
    ensures MatchesSearch(Value(s), p)
  {
    SearchFindsNameStart(s, p);
  }

  /** Searching "laptop" finds "LAPTOP": the search ignores case. */
  lemma SearchIgnoresCaseExample(p: Product)
    requires p.name == "LAPTOP"
    ensures MatchesSearch(Value("laptop"), p)
  {
    assert !IsBlank("laptop") by { assert !IsWhiteSpace("laptop"[0]); }
    LaptopLowersAlike();
  }

  /** "laptop" and "LAPTOP" lower-case to the same text. */
  lemma LaptopLowersAlike()
    ensures ToLower("laptop") == ToLower("LAPTOP")
  {
    var s, n := ToLower("laptop"), ToLower("LAPTOP");
    assert forall i :: 0 <= i < 6 ==> s[i] == n[i];
  }

  /** Searching "Lap" finds "Laptop": part of the name is enough. */
  lemma SearchFindsPartExample(p: Product)
    requires p.name == "Laptop"
    ensures MatchesSearch(Value("Lap"), p)
  {
    assert !IsBlank("Lap") by { assert !IsWhiteSpace("Lap"[0]); }
    assert "Lap" <= p.name;
    SearchFindsNameStart("Lap", p);
  }

  /** Searching "Lap" does not find "Phone" described as "Desc". */
  lemma SearchMissesExample(p: Product)
    requires p.name == "Phone" && p.description == Value("Desc")
    ensures !MatchesSearch(Value("Lap"), p)
  {
    assert !IsBlank("Lap") by { assert !IsWhiteSpace("Lap"[0]); }
    var s := ToLower("Lap");
    PhoneLacksLetterL();
    ToLowerMissesLetter(p.name, 'l');
    ToLowerMissesLetter(p.description.value, 'l');
    NotContainsFirst(ToLower(p.name), s);
    NotContainsFirst(ToLower(p.description.value), s);
  }

  /** "Lap" lower-cases to a text that starts with "l", a letter "Phone" and "Desc" lack in either case. */
  lemma PhoneLacksLetterL()
    ensures |ToLower("Lap")| == 3 && ToLower("Lap")[0] == 'l'
    ensures 'l' !in "Phone" && 'L' !in "Phone" && 'l' !in "Desc" && 'L' !in "Desc"
  {
  }

  /** Category "Electronics" keeps "Electronics" only, case included. */
  lemma CategoryFilterExample(p: Product)
    ensures MatchesCategory(Value("Electronics"), p) <==> p.category == "Electronics"
    ensures p.category == "Electronics" ==> !MatchesCategory(Value("electronics"), p)
  {
    assert !IsBlank("Electronics") by { assert !IsWhiteSpace("Electronics"[0]); }
    assert !IsBlank("electronics") by { assert !IsWhiteSpace("electronics"[0]); }
    assert "Electronics"[0] != "electronics"[0];
  }

  /** Search "Laptop" with category "Electronics" keeps the laptop and drops the laptop case
      filed under "Accessories": the two filters combine with AND. */
  lemma CombinedFilterExample(laptop: Product, laptopCase: Product)
    requires laptop.name == "Laptop" && laptop.category == "Electronics"
    requires laptopCase.name == "Laptop Case" && laptopCase.category == "Accessories"
    ensures Matches(Value("Laptop"), Value("Electronics"), laptop)
    ensures !Matches(Value("Laptop"), Value("Electronics"), laptopCase)
  {
    assert !IsBlank("Laptop") by { assert !IsWhiteSpace("Laptop"[0]); }
    assert !IsBlank("Electronics") by { assert !IsWhiteSpace("Electronics"[0]); }
    SearchFindsOwnName("Laptop", laptop);
    assert "Accessories"[0] != "Electronics"[0];
  }

  // ---- The search as written ----

  /** Whatever the search as written finds, the consistent search finds too. */
  lemma SearchAsWrittenFindsLess(search: Nullable<string>, p: Product)
    ensures MatchesSearchAsWritten(search, p) ==> MatchesSearch(search, p)
  {
    if MatchesSearchAsWritten(search, p) && !IsNullOrWhiteSpace(search) {
      var s := ToLower(search.value);
      assert forall k :: 0 <= k < |s| ==> !IsUpper(s[k]);
      if Contains(SqlLower(p.name), s) {
        ContainsSqlLowerImplies(p.name, s);
      } else {
        ContainsSqlLowerImplies(p.description.value, s);
      }
    }
  }

  /** The two searches agree on records without Cyrillic capitals. */
  lemma SearchAsWrittenAgreesOnLatin(search: Nullable<string>, p: Product)
    requires forall i :: 0 <= i < |p.name| ==> !('\U{400}' <= p.name[i] <= '\U{42F}')
    requires p.description.Value? ==>
      forall i :: 0 <= i < |p.description.value| ==> !('\U{400}' <= p.description.value[i] <= '\U{42F}')
    ensures MatchesSearchAsWritten(search, p) <==> MatchesSearch(search, p)
  {
    SqlLowerAgreesWithoutCyrillic(p.name);
    if p.description.Value? {
      SqlLowerAgreesWithoutCyrillic(p.description.value);
    }
  }

  /** The laptop the application seeds, named "Ноутбук" and described as
      "Игровой ноутбук 15.6\"", is not found by a search for "Игровой", the first word of its
      own description. */
  lemma SearchAsWrittenMissesSeededLaptop(p: Product)
    requires p.name == "Ноутбук" && p.description == Value("Игровой ноутбук 15.6\"")
    ensures !MatchesSearchAsWritten(Value("Игровой"), p)
  {
    var d := p.description.value;
    assert !IsBlank("Игровой") by { assert !IsWhiteSpace("Игровой"[0]); }
    var s := ToLower("Игровой");
    assert s[0] == 'и';
    assert !Contains(SqlLower(p.name), s) by {
      SeededLaptopLacksSmallI();
      SqlLowerMissesLetter(p.name, 'и');
      NotContainsFirst(SqlLower(p.name), s);
    }
    assert !Contains(SqlLower(d), s) by {
      SeededLaptopLacksSmallI();
      SqlLowerMissesLetter(d, 'и');
      NotContainsFirst(SqlLower(d), s);
    }
  }

  /** Neither text of the seeded laptop holds a lower-case "и". */
  lemma SeededLaptopLacksSmallI()
    ensures 'и' !in "Ноутбук" && 'и' !in "Игровой ноутбук 15.6\""
  {
  }

  /** The consistent search finds the seeded laptop by the first word of its description. */
  lemma SearchFindsSeededLaptop(p: Product)
    requires p.name == "Ноутбук" && p.description == Value("Игровой ноутбук 15.6\"")
    ensures MatchesSearch(Value("Игровой"), p)
  {
    assert !IsBlank("Игровой") by { assert !IsWhiteSpace("Игровой"[0]); }
    assert "Игровой" <= p.description.value;
    SearchFindsDescriptionStart("Игровой", p);
  }

  /** A two-record listing in a strict order has only one arrangement. */
  lemma TwoInOrder(k: SortKey, desc: bool, xs: seq<Product>, a: Product, b: Product)
    requires |xs| == 2 && xs[0] != xs[1] && a != b
    requires (xs[0] == a || xs[0] == b) && (xs[1] == a || xs[1] == b)
    requires SortedBy(k, desc, xs) && !InOrder(k, desc, b, a)
    ensures xs == [a, b]
  {
    assert InOrder(k, desc, xs[0], xs[1]);
  }

  lemma TwoValues(a: Product, b: Product, p: Product)
    requires p in map[a.id := a, b.id := b].Values
    ensures p == a || p == b
  {
    var k :| k in map[a.id := a, b.id := b] && map[a.id := a, b.id := b][k] == p;
  }

  /** When every match fits on the first page, that page is the whole ordered result. */
  lemma FirstPageHoldsAll(store: Store, scan: seq<Id>, q: Query)
    requires IsScan(store, scan) && q.page == 1
    requires |MatchingIds(store, q.search, q.category)| <= q.pageSize
    ensures GetProducts(store, scan, q).items == Ordered(store, scan, q)
  {
    var all := Ordered(store, scan, q);
    assert Offset(q.page, q.pageSize) == 0;
    assert Page(all, q.page, q.pageSize) == Take(all, q.pageSize);
  }

  /** With no filter, a store of two records lists both on a first page of ten. */
  lemma TwoRecordsListed(a: Product, b: Product, scan: seq<Id>, q: Query)
    requires a.id != b.id && IsScan(map[a.id := a, b.id := b], scan)
    requires q.search == Null && q.category == Null && q.page == 1 && q.pageSize == 10
    ensures var items := GetProducts(map[a.id := a, b.id := b], scan, q).items;
      && |items| == 2 && items[0] != items[1]
      && (items[0] == a || items[0] == b) && (items[1] == a || items[1] == b)
  {
    var store := map[a.id := a, b.id := b];
    assert KeysMatchIds(store);
    NoFilterMatchesAll(store, q.search, q.category);
    assert |store.Keys| == 2 by {
      assert store.Keys == {a.id, b.id};
    }
    FirstPageHoldsAll(store, scan, q);
    var items := Ordered(store, scan, q);
    assert items[0] in store.Values && items[1] in store.Values;
    TwoValues(a, b, items[0]);
    TwoValues(a, b, items[1]);
  }

  /** Ascending by name, "Apple" comes before "Banana". */
  lemma SortByNameExample(apple: Product, banana: Product, scan: seq<Id>)
    requires apple.name == "Apple" && banana.name == "Banana" && apple.id != banana.id
    requires IsScan(map[apple.id := apple, banana.id := banana], scan)
    ensures GetProducts(map[apple.id := apple, banana.id := banana], scan, Query(Null, Null, "Name", false, 1, 10)).items
         == [apple, banana]
  {
    var q := Query(Null, Null, "Name", false, 1, 10);
    var items := GetProducts(map[apple.id := apple, banana.id := banana], scan, q).items;
    TwoRecordsListed(apple, banana, scan, q);
    NameSortsBananaAfterApple();
    TwoInOrder(ByName, false, items, apple, banana);
  }

  /** "Name" selects the name order, in which "Banana" does not come before "Apple". */
  lemma NameSortsBananaAfterApple()
    ensures ParseSortKey("Name") == ByName && !LexLe("Banana", "Apple")
  {
  }
}

=== FILE: models.dfy ===
/**
 The `Product` record, the store of products keyed by id, and the field-validation rule
 set declared on the record with data annotations.
 */
module Models {
  import opened Nullables
  import opened Text

  /** A `Guid`, as the number its 128 bits spell; 0 is `Guid.Empty`. */
  type Id = nat

  const EmptyId: Id := 0

  /** A `Guid` produced by `Guid.NewGuid`, which never returns `Guid.Empty`. */
  type GeneratedId = id: Id | id != EmptyId witness 1

  /** A `decimal` price with two fractional digits, counted in cents. */
  type Cents = int

  /** A UTC `DateTime`, counted in ticks. */
  type Timestamp = int

  datatype Product = Product(
    id: Id,
    name: string,
    description: Nullable<string>,
    price: Cents,
    category: string,
    createdAt: Timestamp,
    updatedAt: Timestamp)

  /** The products table: one row per key. */
  type Store = map<Id, Product>

  /** Every row sits under its own id. */
  predicate KeysMatchIds(store: Store) {
    forall k :: k in store ==> store[k].id == k
  }

  /** No row was updated before it was created. */
  predicate TimestampsOrdered(store: Store) {
    forall k :: k in store ==> store[k].createdAt <= store[k].updatedAt
  }

  // ---- Validation rules ([Required], [StringLength], [Range]) ----

  /** Bounds of the [StringLength] and [Range] attributes. */
  const NameMinLength := 3
  const NameMaxLength := 50
  const DescriptionMaxLength := 255
  const CategoryMaxLength := 50
  const MinPrice: Cents := 1           // 0.01
  const MaxPrice: Cents := 99999999    // 999999.99

  /** [Required] on a string: not null, not empty, not only white space. */
  predicate IsRequiredMet(s: string) {
    !IsBlank(s)
  }

  predicate NameValid(name: string) {
    IsRequiredMet(name) && NameMinLength <= |name| <= NameMaxLength
  }

  /** An absent description passes; [StringLength] only bounds a present one. */
  predicate DescriptionValid(description: Nullable<string>) {
    description.Null? || |description.value| <= DescriptionMaxLength
  }

  predicate PriceValid(price: Cents) {
    MinPrice <= price <= MaxPrice
  }

  predicate CategoryValid(category: string) {
    IsRequiredMet(category) && |category| <= CategoryMaxLength
  }

  /** The whole rule set; the id and the timestamps carry no annotation. */
  predicate Valid(p: Product) {
    && NameValid(p.name)
    && DescriptionValid(p.description)
    && PriceValid(p.price)
    && CategoryValid(p.category)
  }

  /** A field the model binder can report an error for. */
  datatype Field = Name | Description | Price | Category

  /** The fields whose annotations reject the record, as the model state reports them. */
  function Violations(p: Product): (r: set<Field>)
    ensures r == {} <==> Valid(p)
    ensures Name in r <==> IsBlank(p.name) || |p.name| < 3 || 50 < |p.name|
    ensures Description in r <==> p.description.Value? && 255 < |p.description.value|
    ensures Price in r <==> p.price < 1 || 99999999 < p.price
    ensures Category in r <==> IsBlank(p.category) || 50 < |p.category|
  {
    (if NameValid(p.name) then {} else {Name})
    + (if DescriptionValid(p.description) then {} else {Description})
    + (if PriceValid(p.price) then {} else {Price})
    + (if CategoryValid(p.category) then {} else {Category})
  }

  /** Validity depends only on name, description, price and category. */
  lemma ValidIgnoresBookkeeping(p: Product, id: Id, createdAt: Timestamp, updatedAt: Timestamp)
    ensures Valid(p.(id := id, createdAt := createdAt, updatedAt := updatedAt)) <==> Valid(p)
    ensures Violations(p.(id := id, createdAt := createdAt, updatedAt := updatedAt)) == Violations(p)
  {
  }
}

=== FILE: nullables.dfy ===
/** C#'s nullable references (`string?`, `Product?`) as an explicit option type. */
module Nullables {

  datatype Nullable<+T> = Null | Value(value: T)
}

=== FILE: paging.dfy ===
/**
 The pagination step of the product listing: LINQ `Skip((page - 1) * pageSize).Take(pageSize)`
 over the ordered result, with the offset computed either as the source writes it (in C#'s
 unchecked 32-bit `int` arithmetic) or exactly.
 */
module Paging {
  import opened Sequences

  const Int32Min: int := -0x8000_0000
  const Int32Max: int := 0x7fff_ffff

  /** A C# `int`. */
  type Int32 = x: int | Int32Min <= x <= Int32Max

  function Min(a: int, b: int): int { if a <= b then a else b }
  function Max(a: int, b: int): int { if a <= b then b else a }

  /** The `int` that unchecked C# arithmetic leaves for the mathematical value `x`. */
  function Wrap32(x: int): (r: Int32)
    ensures (r - x) % 0x1_0000_0000 == 0
    ensures Int32Min <= x <= Int32Max ==> r == x
  {
    var m := x % 0x1_0000_0000;
    if m <= Int32Max then m else m - 0x1_0000_0000
  }

  /** `Enumerable.Skip`: a count at or below zero skips nothing. */
  function Skip<T>(xs: seq<T>, n: int): (r: seq<T>)
    ensures |r| == |xs| - Min(|xs|, Max(0, n))
    ensures forall i :: 0 <= i < |r| ==> r[i] == xs[i + Max(0, n)]
  {
    if n <= 0 then xs else if n >= |xs| then [] else xs[n..]
  }

  /** `Enumerable.Take`: a count at or below zero takes nothing. */
  function Take<T>(xs: seq<T>, n: int): (r: seq<T>)
    ensures |r| == Min(|xs|, Max(0, n))
    ensures r <= xs
  {
    if n <= 0 then [] else if n >= |xs| then xs else xs[..n]
  }

  /** Offset of the first record of a 1-based page, in exact arithmetic. */
  function Offset(page: int, pageSize: int): int {
    (page - 1) * pageSize
  }

  /** The records of page `page` of `xs`, `pageSize` per page. */
  function Page<T>(xs: seq<T>, page: int, pageSize: int): (r: seq<T>)
    ensures |r| == Min(Max(0, pageSize), |xs| - Min(|xs|, Max(0, Offset(page, pageSize))))
    ensures forall i :: 0 <= i < |r| ==> r[i] == xs[Max(0, Offset(page, pageSize)) + i]
    ensures pageSize <= 0 || |xs| <= Offset(page, pageSize) ==> r == []
  {
    Run(xs, Offset(page, pageSize), pageSize)
  }

  /** Skipping `o` and taking `n` leaves the run of `xs` from `o`, at most `n` long. */
  function Run<T>(xs: seq<T>, o: int, n: int): (r: seq<T>)
    ensures |r| == Min(Max(0, n), |xs| - Min(|xs|, Max(0, o)))
    ensures forall i :: 0 <= i < |r| ==> r[i] == xs[Max(0, o) + i]
    ensures n <= 0 || |xs| <= o ==> r == []
  {
    Take(Skip(xs, o), n)
  }

  /** Every page is one contiguous run of `xs`. */
  lemma PageWindow<T>(xs: seq<T>, page: int, pageSize: int)
    ensures var o := Min(|xs|, Max(0, Offset(page, pageSize)));
      && o + |Page(xs, page, pageSize)| <= |xs|
      && Page(xs, page, pageSize) == xs[o..o + |Page(xs, page, pageSize)|]
  {
    var r := Page(xs, page, pageSize);
    var o := Min(|xs|, Max(0, Offset(page, pageSize)));
    if |r| > 0 {
      assert o == Max(0, Offset(page, pageSize));
    }
    assert r == xs[o..o + |r|];
  }

  /** The page as the source computes it: `(page - 1) * pageSize` wraps around in `int`.
      Wrapping after each operation leaves the same `int` as wrapping the exact product once. */
  function PageAsWritten<T>(xs: seq<T>, page: Int32, pageSize: Int32): (r: seq<T>)
    ensures Int32Min <= Offset(page, pageSize) <= Int32Max ==> r == Page(xs, page, pageSize)
    ensures |r| <= Max(0, pageSize)
  {
    Take(Skip(xs, Wrap32(Offset(page, pageSize))), pageSize)
  }

  /** A page far past the end comes back as the first page instead of empty. */
  lemma PageOffsetWraps<T>(x: T)
    ensures Page([x], 214748366, 10) == []
    ensures PageAsWritten([x], 214748366, 10) == [x]
  {
    assert Wrap32(214748365 * 10) == -2147483646;
  }

  /** Pages 1..n of `xs`, one after another. */
  function FirstPages<T>(xs: seq<T>, n: nat, pageSize: int): seq<T> {
    if n == 0 then [] else FirstPages(xs, n - 1, pageSize) + Page(xs, n, pageSize)
  }

  /** The sequences in `pages`, one after another. */
  function Joined<T>(pages: seq<seq<T>>): seq<T> {
    if |pages| == 0 then [] else Joined(pages[..|pages| - 1]) + pages[|pages| - 1]
  }

  /** Pages 1..n taken one at a time and joined in order are the first n pages of `xs`. */
  lemma {:induction false} JoinedPages<T>(xs: seq<T>, pages: seq<seq<T>>, pageSize: int)
    requires forall i :: 0 <= i < |pages| ==> pages[i] == Page(xs, i + 1, pageSize)
    ensures Joined(pages) == FirstPages(xs, |pages|, pageSize)
  {
    if |pages| > 0 {
      JoinedPages(xs, pages[..|pages| - 1], pageSize);
    }
  }

  /** Page `page` is the run of `xs` from its offset, at most `pageSize` long. */
  lemma PageSlice<T>(xs: seq<T>, page: int, pageSize: int)
    requires page >= 1 && pageSize > 0
    ensures 0 <= Offset(page, pageSize) && Offset(page + 1, pageSize) == Offset(page, pageSize) + pageSize
    ensures Page(xs, page, pageSize)
         == xs[Min(|xs|, Offset(page, pageSize))..Min(|xs|, Offset(page + 1, pageSize))]
  {
    OffsetStep(page, pageSize);
  }

  /** Page `page` starts at a non-negative offset, and the next page one full page later. */
  lemma OffsetStep(page: int, pageSize: int)
    requires page >= 1 && pageSize > 0
    ensures 0 <= Offset(page, pageSize)
    ensures Offset(page + 1, pageSize) == Offset(page, pageSize) + pageSize
  {
    var before := page - 1;
    assert before * pageSize >= 0;
    assert page * pageSize == before * pageSize + pageSize;
  }

  /** Consecutive pages neither overlap nor leave gaps: pages 1..n, one after another, are
      the records that come before page n + 1. */
  lemma {:induction false} PagesTile<T>(xs: seq<T>, n: nat, pageSize: int)
    requires pageSize > 0
    ensures FirstPages(xs, n, pageSize) <= xs
    ensures |FirstPages(xs, n, pageSize)| == Min(|xs|, Offset(n + 1, pageSize))
  {
    if n == 0 {
      assert Offset(1, pageSize) == 0;
    } else {
      PagesTile(xs, n - 1, pageSize);
      PageSlice(xs, n, pageSize);
      var lo := Min(|xs|, Offset(n, pageSize));
      var hi := Min(|xs|, Offset(n + 1, pageSize));
      var before := FirstPages(xs, n - 1, pageSize);
      var last := Page(xs, n, pageSize);
      assert FirstPages(xs, n, pageSize) == before + last;
      assert before == xs[..lo];
      assert last == xs[lo..hi];
      SliceJoin(xs, lo, hi);
    }
  }

  /** A prefix followed by the run after it is the longer prefix. */
  lemma SliceJoin<T>(xs: seq<T>, lo: int, hi: int)
    requires 0 <= lo <= hi <= |xs|
    ensures xs[..lo] + xs[lo..hi] == xs[..hi]
  {
  }

  /** Enough pages list every record. */
  lemma PagesCoverAll<T>(xs: seq<T>, n: nat, pageSize: int)
    requires pageSize > 0 && |xs| <= Offset(n + 1, pageSize)
    ensures FirstPages(xs, n, pageSize) == xs
  {
    PagesTile(xs, n, pageSize);
  }

  lemma OffsetGrows(p: int, q: int, pageSize: int)
    requires p <= q && pageSize > 0
    ensures Offset(p, pageSize) <= Offset(q, pageSize)
    ensures p < q ==> Offset(p, pageSize) + pageSize <= Offset(q, pageSize)
  {
    var d := q - p;
    assert Offset(q, pageSize) == Offset(p, pageSize) + d * pageSize;
    if d > 0 {
      assert d * pageSize == (d - 1) * pageSize + pageSize;
      assert (d - 1) * pageSize >= 0;
    }
  }

  lemma PageIndex<T>(xs: seq<T>, page: int, pageSize: int, i: int)
    requires 1 <= page && pageSize > 0 && 0 <= i < |Page(xs, page, pageSize)|
    ensures 0 <= Offset(page, pageSize) && i < pageSize
    ensures Page(xs, page, pageSize)[i] == xs[Offset(page, pageSize) + i]
  {
    OffsetStep(page, pageSize);
  }

  /** Two different pages of a duplicate-free sequence share no record. */
  lemma PagesDisjoint<T>(xs: seq<T>, p: int, q: int, pageSize: int, x: T)
    requires Distinct(xs) && 1 <= p < q && pageSize > 0
    requires x in Page(xs, p, pageSize)
    ensures x !in Page(xs, q, pageSize)
  {
    var a := Page(xs, p, pageSize);
    var b := Page(xs, q, pageSize);
    var i :| 0 <= i < |a| && a[i] == x;
    PageIndex(xs, p, pageSize, i);
    OffsetGrows(p, q, pageSize);
    forall j | 0 <= j < |b|
      ensures b[j] != x
    {
      PageIndex(xs, q, pageSize, j);
    }
  }
}

=== FILE: sequences.dfy ===
/** Sequence helpers shared by the listing steps. */
module Sequences {

  predicate Distinct<T(==)>(xs: seq<T>) {
    forall i, j :: 0 <= i < j < |xs| ==> xs[i] != xs[j]
  }

  /** LINQ `Where`: keeps the elements that pass `keep`, each as often as it occurs. */
  function Filter<T(!new)>(keep: T -> bool, xs: seq<T>): (r: seq<T>)
    ensures forall x :: multiset(r)[x] == if keep(x) then multiset(xs)[x] else 0
  {
    if |xs| == 0 then []
    else
      assert xs == [xs[0]] + xs[1..];
      (if keep(xs[0]) then [xs[0]] else []) + Filter(keep, xs[1..])
  }

  lemma {:induction false} DistinctTail<T>(xs: seq<T>)
    requires Distinct(xs) && |xs| > 0
    ensures Distinct(xs[1..]) && xs[0] !in xs[1..]
  {
    var t := xs[1..];
    forall i, j | 0 <= i < j < |t| ensures t[i] != t[j] {
      assert t[i] == xs[i + 1] && t[j] == xs[j + 1];
    }
    forall j | 0 <= j < |t| ensures t[j] != xs[0] {
      assert t[j] == xs[j + 1];
    }
  }

  /** No duplicates, stated by positions or by multiplicities. */
  lemma {:induction false} DistinctCounts<T>(xs: seq<T>)
    ensures Distinct(xs) <==> forall x :: multiset(xs)[x] <= 1
  {
    if |xs| > 0 {
      var t := xs[1..];
      DistinctCounts(t);
      assert xs == [xs[0]] + t;
      assert multiset(xs) == multiset{xs[0]} + multiset(t);
      if Distinct(xs) {
        DistinctTail(xs);
      } else {
        var i, j :| 0 <= i < j < |xs| && xs[i] == xs[j];
        if i == 0 {
          assert t[j - 1] == xs[j];
          assert multiset(xs)[xs[0]] >= 2;
        } else {
          assert t[i - 1] == xs[i] && t[j - 1] == xs[j];
          assert !Distinct(t);
          var x :| multiset(t)[x] > 1;
          assert multiset(xs)[x] >= 2;
        }
      }
    }
  }
}

=== FILE: sorting.dfy ===
/**
 The ordering step of the product listing: the sort key chosen from a string, the
 ascending or descending comparison on that key, and a sort that returns a permutation
 of its input ordered by that comparison. Ties are left in whatever order the sort
 produces; nothing here depends on it.
 */
module Sorting {
  import opened Text
  import opened Models
  import opened Sequences

  datatype SortKey = ByName | ByPrice | ByCategory | ByCreatedAt

  /** The `sortBy` string that selects each key. */
  function KeyName(k: SortKey): string {
    match k
    case ByName => "Name"
    case ByPrice => "Price"
    case ByCategory => "Category"
    case ByCreatedAt => "CreatedAt"
  }

  /** Exact, case-sensitive match on the four key names; anything else sorts by name. */
  function ParseSortKey(sortBy: string): (k: SortKey)
    ensures k == ByPrice <==> sortBy == "Price"
    ensures k == ByCategory <==> sortBy == "Category"
    ensures k == ByCreatedAt <==> sortBy == "CreatedAt"
    ensures k == ByName <==> sortBy !in {"Price", "Category", "CreatedAt"}
  {
    if sortBy == "Price" then ByPrice
    else if sortBy == "Category" then ByCategory
    else if sortBy == "CreatedAt" then ByCreatedAt
    else ByName
  }

  lemma {:induction false} ParseKeyName(k: SortKey)
    ensures ParseSortKey(KeyName(k)) == k
  {
    match k
    case ByName =>
    case ByPrice =>
    case ByCategory =>
    case ByCreatedAt =>
  }

  /** `a` may come before `b` in ascending order of key `k`. */
  predicate KeyLe(k: SortKey, a: Product, b: Product) {
    match k
    case ByName => LexLe(a.name, b.name)
    case ByPrice => a.price <= b.price
    case ByCategory => LexLe(a.category, b.category)
    case ByCreatedAt => a.createdAt <= b.createdAt
  }

  /** `a` may come before `b` in the listing: `OrderBy` or, with `desc`, `OrderByDescending`. */
  predicate InOrder(k: SortKey, desc: bool, a: Product, b: Product) {
    if desc then KeyLe(k, b, a) else KeyLe(k, a, b)
  }

  lemma InOrderTotal(k: SortKey, desc: bool, a: Product, b: Product)
    ensures InOrder(k, desc, a, b) || InOrder(k, desc, b, a)
  {
    match k
    case ByName => LexLeTotal(a.name, b.name);
    case ByCategory => LexLeTotal(a.category, b.category);
    case _ =>
  }

  lemma InOrderTransitive(k: SortKey, desc: bool, a: Product, b: Product, c: Product)
    requires InOrder(k, desc, a, b) && InOrder(k, desc, b, c)
    ensures InOrder(k, desc, a, c)
  {
    match k
    case ByName =>
      if desc { LexLeTransitive(c.name, b.name, a.name); } else { LexLeTransitive(a.name, b.name, c.name); }
    case ByCategory =>
      if desc { LexLeTransitive(c.category, b.category, a.category); } else { LexLeTransitive(a.category, b.category, c.category); }
    case _ =>
  }

  predicate SortedBy(k: SortKey, desc: bool, xs: seq<Product>) {
    forall i, j :: 0 <= i < j < |xs| ==> InOrder(k, desc, xs[i], xs[j])
  }

  /** Places `x` into the ordered sequence `xs`. */
  function Insert(k: SortKey, desc: bool, x: Product, xs: seq<Product>): (r: seq<Product>)
    requires SortedBy(k, desc, xs)
    ensures multiset(r) == multiset(xs) + multiset{x}
    ensures SortedBy(k, desc, r)
  {
    if |xs| == 0 then [x]
    else if InOrder(k, desc, x, xs[0]) then
      InsertFront(k, desc, x, xs);
      [x] + xs
    else
      InOrderTotal(k, desc, x, xs[0]);
      var rest := Insert(k, desc, x, xs[1..]);
      assert xs == [xs[0]] + xs[1..];
      InsertBehind(k, desc, xs[0], x, xs[1..], rest);
      [xs[0]] + rest
  }

  lemma InsertFront(k: SortKey, desc: bool, x: Product, xs: seq<Product>)
    requires SortedBy(k, desc, xs) && |xs| > 0 && InOrder(k, desc, x, xs[0])
    ensures SortedBy(k, desc, [x] + xs)
  {
    forall j | 1 <= j < |xs| + 1
      ensures InOrder(k, desc, x, ([x] + xs)[j])
    {
      if j > 1 {
        InOrderTransitive(k, desc, x, xs[0], xs[j - 1]);
      }
    }
  }

  lemma InsertBehind(k: SortKey, desc: bool, y: Product, x: Product, xs: seq<Product>, rest: seq<Product>)
    requires SortedBy(k, desc, [y] + xs) && InOrder(k, desc, y, x)
    requires SortedBy(k, desc, rest) && multiset(rest) == multiset(xs) + multiset{x}
    ensures SortedBy(k, desc, [y] + rest)
  {
    forall j | 0 <= j < |rest|
      ensures InOrder(k, desc, y, rest[j])
    {
      assert rest[j] in multiset(rest);
      if rest[j] != x {
        assert rest[j] in multiset(xs);
        var i :| 0 <= i < |xs| && xs[i] == rest[j];
        assert ([y] + xs)[i + 1] == xs[i];
        assert InOrder(k, desc, ([y] + xs)[0], ([y] + xs)[i + 1]);
      }
    }
  }

  /** Insertion sort: a permutation of `xs`, ordered by key `k` in direction `desc`. */
  function Sort(k: SortKey, desc: bool, xs: seq<Product>): (r: seq<Product>)
    ensures multiset(r) == multiset(xs)
    ensures SortedBy(k, desc, r)
  {
    if |xs| == 0 then []
    else
      assert xs == [xs[0]] + xs[1..];
      Insert(k, desc, xs[0], Sort(k, desc, xs[1..]))
  }

  /** No two different records of `xs` tie on key `k`. */
  predicate NoTies(k: SortKey, desc: bool, xs: set<Product>) {
    forall x, y :: x in xs && y in xs && x != y ==> !(InOrder(k, desc, x, y) && InOrder(k, desc, y, x))
  }

  /** The head of a sorted sequence may come before any other member. */
  lemma HeadComesFirst(k: SortKey, desc: bool, xs: seq<Product>, x: Product)
    requires SortedBy(k, desc, xs) && x in xs
    ensures x != xs[0] ==> InOrder(k, desc, xs[0], x)
  {
    var i :| 0 <= i < |xs| && xs[i] == x;
  }

  /** Without ties, the order is determined by the members: two sorted, duplicate-free
      sequences with the same members, drawn from records no two of which tie, are equal. */
  lemma {:induction false} SortedUnique(k: SortKey, desc: bool, a: seq<Product>, b: seq<Product>, pool: set<Product>)
    requires SortedBy(k, desc, a) && SortedBy(k, desc, b)
    requires Distinct(a) && Distinct(b)
    requires forall x :: x in a <==> x in b
    requires NoTies(k, desc, pool) && forall x :: x in a ==> x in pool
    ensures a == b
  {
    if |a| > 0 {
      assert a[0] in a;
    }
    if |b| > 0 {
      assert b[0] in b;
    }
    if |a| > 0 && |b| > 0 {
      HeadComesFirst(k, desc, a, b[0]);
      HeadComesFirst(k, desc, b, a[0]);
      assert a[0] == b[0];
      DistinctTail(a);
      DistinctTail(b);
      var ta, tb := a[1..], b[1..];
      forall x ensures x in ta <==> x in tb {
        if x in ta {
          assert x in b && x != b[0];
          var n :| 0 <= n < |b| && b[n] == x;
          assert tb[n - 1] == x;
        }
        if x in tb {
          assert x in a && x != a[0];
          var n :| 0 <= n < |a| && a[n] == x;
          assert ta[n - 1] == x;
        }
      }
      assert SortedBy(k, desc, ta) by {
        forall m, n | 0 <= m < n < |ta| ensures InOrder(k, desc, ta[m], ta[n]) {
          assert ta[m] == a[m + 1] && ta[n] == a[n + 1];
        }
      }
      assert SortedBy(k, desc, tb) by {
        forall m, n | 0 <= m < n < |tb| ensures InOrder(k, desc, tb[m], tb[n]) {
          assert tb[m] == b[m + 1] && tb[n] == b[n + 1];
        }
      }
      SortedUnique(k, desc, ta, tb, pool);
      assert a == [a[0]] + ta && b == [b[0]] + tb;
    }
  }

  function Reverse(xs: seq<Product>): (r: seq<Product>)
    ensures |r| == |xs|
    ensures forall i :: 0 <= i < |xs| ==> r[i] == xs[|xs| - 1 - i]
  {
    if |xs| == 0 then [] else Reverse(xs[1..]) + [xs[0]]
  }

  /** `OrderByDescending` lists in the reverse of an `OrderBy` order on the same key. */
  lemma SortedDescendingIffReversed(k: SortKey, xs: seq<Product>)
    ensures SortedBy(k, true, xs) <==> SortedBy(k, false, Reverse(xs))
  {
    var r := Reverse(xs);
    if SortedBy(k, true, xs) {
      forall i, j | 0 <= i < j < |r| ensures InOrder(k, false, r[i], r[j]) {
        assert InOrder(k, true, xs[|xs| - 1 - j], xs[|xs| - 1 - i]);
      }
    }
    if SortedBy(k, false, r) {
      forall i, j | 0 <= i < j < |xs| ensures InOrder(k, true, xs[i], xs[j]) {
        assert r[|xs| - 1 - j] == xs[j] && r[|xs| - 1 - i] == xs[i];
        assert InOrder(k, false, r[|xs| - 1 - j], r[|xs| - 1 - i]);
      }
    }
  }
}

=== FILE: text.dfy ===
/**
 The string primitives the product query relies on: .NET's `string.IsNullOrWhiteSpace`,
 lower-casing, ordinal `Contains`, and the ordinal (code point by code point) order that
 the datastore uses to sort text columns.
 */
module Text {
  import opened Nullables

  /** .NET `char.IsWhiteSpace`: the Unicode space, line and paragraph separators plus
      the control characters U+0009..U+000D and U+0085. */
  predicate IsWhiteSpace(c: char) {
    || '\t' <= c <= '\r'
    || c == ' '
    || c == '\U{85}'
    || c == '\U{A0}'
    || c == '\U{1680}'
    || '\U{2000}' <= c <= '\U{200A}'
    || c == '\U{2028}'
    || c == '\U{2029}'
    || c == '\U{202F}'
    || c == '\U{205F}'
    || c == '\U{3000}'
  }

  /** Empty, or made only of white space. */
  predicate IsBlank(s: string) {
    forall i :: 0 <= i < |s| ==> IsWhiteSpace(s[i])
  }

  /** .NET `string.IsNullOrWhiteSpace`. */
  predicate IsNullOrWhiteSpace(s: Nullable<string>) {
    s.Null? || IsBlank(s.value)
  }

  /** The capital letters `ToLower` knows: A..Z and the Cyrillic capitals U+0400..U+042F. */
  predicate IsUpper(c: char) {
    'A' <= c <= 'Z' || '\U{400}' <= c <= '\U{42F}'
  }

  /** .NET `char.ToLower`, as it applies to Latin and Cyrillic text: A..Z and А..Я move up
      by 32, Ѐ..Џ move up by 80 to ѐ..џ, and every other character stays. */
  function ToLowerChar(c: char): (r: char)
    ensures !IsUpper(r)
    ensures !IsUpper(c) ==> r == c
    ensures 'A' <= c <= 'Z' ==> r as int - c as int == 32
    ensures '\U{410}' <= c <= '\U{42F}' ==> r as int - c as int == 32
    ensures '\U{400}' <= c <= '\U{40F}' ==> r as int - c as int == 80
  {
    if 'A' <= c <= 'Z' || '\U{410}' <= c <= '\U{42F}' then (c as int + 32) as char
    else if '\U{400}' <= c <= '\U{40F}' then (c as int + 80) as char
    else c
  }

  /** .NET `string.ToLower`, applied to the search text before the query is sent. */
  function ToLower(s: string): (r: string)
    ensures |r| == |s|
    ensures forall i :: 0 <= i < |s| ==> r[i] == ToLowerChar(s[i])
  {
    if |s| == 0 then [] else [ToLowerChar(s[0])] + ToLower(s[1..])
  }

  /** Lower-casing twice is lower-casing once. */
  lemma ToLowerIdempotent(s: string)
    ensures ToLower(ToLower(s)) == ToLower(s)
  {
    var t := ToLower(s);
    assert forall i :: 0 <= i < |t| ==> !IsUpper(t[i]);
  }

  /** Lower-casing produces the letter `lo` of a..z only from `lo` itself or its capital. */
  lemma ToLowerMissesLetter(t: string, lo: char)
    requires 'a' <= lo <= 'z'
    requires lo !in t && (lo as int - 32) as char !in t
    ensures lo !in ToLower(t)
  {
    forall i | 0 <= i < |t| ensures ToLower(t)[i] != lo {
      assert t[i] in t;
    }
  }

  /** SQLite's built-in `lower()`: only A..Z are lower-cased. */
  function SqlLowerChar(c: char): (r: char)
    ensures 'A' <= c <= 'Z' ==> 'a' <= r <= 'z' && r as int - c as int == 32
    ensures !('A' <= c <= 'Z') ==> r == c
  {
    if 'A' <= c <= 'Z' then (c as int + 32) as char else c
  }

  /** SQLite's `lower()` on a text column. */
  function SqlLower(s: string): (r: string)
    ensures |r| == |s|
    ensures forall i :: 0 <= i < |s| ==> r[i] == SqlLowerChar(s[i])
  {
    if |s| == 0 then [] else [SqlLowerChar(s[0])] + SqlLower(s[1..])
  }

  /** SQLite's `lower()` produces a non-ASCII letter only where the text already had it. */
  lemma SqlLowerMissesLetter(t: string, c: char)
    requires c > '\U{7F}' && c !in t
    ensures c !in SqlLower(t)
  {
    forall i | 0 <= i < |t| ensures SqlLower(t)[i] != c {
      assert t[i] in t;
    }
  }

  /** The two lower-casings agree on text without Cyrillic capitals, and differ on every
      text that has one. */
  lemma SqlLowerAgreesWithoutCyrillic(s: string)
    ensures SqlLower(s) == ToLower(s) <==> forall i :: 0 <= i < |s| ==> !('\U{400}' <= s[i] <= '\U{42F}')
  {
    if exists i :: 0 <= i < |s| && '\U{400}' <= s[i] <= '\U{42F}' {
      var i :| 0 <= i < |s| && '\U{400}' <= s[i] <= '\U{42F}';
      assert SqlLower(s)[i] != ToLower(s)[i];
    }
  }

  /** Ordinal `string.Contains`: `sub` occurs as a contiguous run of `s`. */
  predicate Contains(s: string, sub: string) {
    sub <= s || (|s| > 0 && Contains(s[1..], sub))
  }

  /** `Contains` finds `sub` exactly when it starts at some position of `s`. */
  lemma {:induction false} ContainsIffOccurs(s: string, sub: string)
    ensures Contains(s, sub) <==> exists i :: 0 <= i <= |s| && sub <= s[i..]
  {
    if |s| == 0 {
      assert forall i :: 0 <= i <= |s| ==> s[i..] == s;
    } else {
      var t := s[1..];
      ContainsIffOccurs(t, sub);
      assert forall i :: 0 <= i <= |t| ==> t[i..] == s[i + 1..];
      if Contains(s, sub) {
        if sub <= s {
          assert s[0..] == s;
        } else {
          var i :| 0 <= i <= |t| && sub <= t[i..];
          assert sub <= s[i + 1..];
        }
      }
      if exists i :: 0 <= i <= |s| && sub <= s[i..] {
        var i :| 0 <= i <= |s| && sub <= s[i..];
        if i == 0 {
          assert s[0..] == s;
        } else {
          assert sub <= t[i - 1..];
        }
      }
    }
  }

  /** A lower-case text found in the SQLite-lowered column is also found in the column
      lowered the .NET way: the two lowerings differ only on Cyrillic capitals, which a
      lower-case text never contains. */
  lemma ContainsSqlLowerImplies(t: string, sub: string)
    requires forall k :: 0 <= k < |sub| ==> !IsUpper(sub[k])
    requires Contains(SqlLower(t), sub)
    ensures Contains(ToLower(t), sub)
  {
    var low, sql := ToLower(t), SqlLower(t);
    ContainsIffOccurs(sql, sub);
    var i :| 0 <= i <= |sql| && sub <= sql[i..];
    forall k | 0 <= k < |sub| ensures low[i + k] == sub[k] {
      assert sql[i..][k] == sql[i + k];
    }
    assert sub <= low[i..];
    ContainsIffOccurs(low, sub);
  }

  /** A text none of whose characters starts `sub` does not contain it. */
  lemma NotContainsFirst(s: string, sub: string)
    requires |sub| > 0 && sub[0] !in s
    ensures !Contains(s, sub)
  {
    ContainsIffOccurs(s, sub);
    forall i | 0 <= i <= |s| ensures !(sub <= s[i..]) {
      if i < |s| {
        assert s[i..][0] == s[i] && s[i] in s;
      }
    }
  }

  /** Ordinal lexicographic order: compare code points left to right, a proper prefix first. */
  predicate LexLe(a: string, b: string) {
    |a| == 0 || (|b| > 0 && (a[0] < b[0] || (a[0] == b[0] && LexLe(a[1..], b[1..]))))
  }

  predicate LexLt(a: string, b: string) {
    LexLe(a, b) && a != b
  }

  lemma {:induction false} LexLeReflexive(a: string)
    ensures LexLe(a, a)
  {
    if |a| > 0 {
      LexLeReflexive(a[1..]);
    }
  }

  lemma {:induction false} LexLeTotal(a: string, b: string)
    ensures LexLe(a, b) || LexLe(b, a)
  {
    if |a| > 0 && |b| > 0 && a[0] == b[0] {
      LexLeTotal(a[1..], b[1..]);
    }
  }

  lemma {:induction false} LexLeAntisymmetric(a: string, b: string)
    requires LexLe(a, b) && LexLe(b, a)
    ensures a == b
  {
    if |a| > 0 && |b| > 0 {
      LexLeAntisymmetric(a[1..], b[1..]);
      assert a == [a[0]] + a[1..];
      assert b == [b[0]] + b[1..];
    }
  }

  lemma {:induction false} LexLeTransitive(a: string, b: string, c: string)
    requires LexLe(a, b) && LexLe(b, c)
    ensures LexLe(a, c)
  {
    if |a| > 0 && a[0] == b[0] && b[0] == c[0] {
      LexLeTransitive(a[1..], b[1..], c[1..]);
    }
  }
}
